=== FILE: README.md ===
# Sports news aggregator core, in Dafny

This project models the logic of a sports news site built with Astro. It
covers two server-side pieces of code.

**The RSS pipeline in `src/lib/rss.ts`.** Every feed in the registry is
fetched and parsed. Each parsed item becomes a `FeedItem`:
- a trimmed title, or `Untitled`;
- a link, or `#`;
- a display date and a normalised ISO date;
- a plain-text excerpt of at most 160 characters;
- the first image found in five places, in a fixed priority order;
- the source label and the origin of the feed URL.

The items of all feeds are then concatenated in registry order. Duplicates
by normalised link are dropped, with the first one winning. The rest is
sorted newest first by a stable sort. A presentation pass fills in missing
images with `/default-article.jpg`.

**The contact form handler in `functions/api/contact.ts`.** The checks run
in this order:
1. A filled honeypot field gets a silent 200.
2. A missing or blank name, email or message gets a 400.
3. A malformed email gets a 400.
4. An attachment over 5 MiB gets a 400, and so does one that is not an
   image.
5. The attachment is uploaded under `attachments/<id>.<ext>`. If the
   upload fails, the submission is still kept, just without the attachment.
6. The submission itself is stored. If that fails, the answer is a 500.
7. Otherwise the answer is a 200.

Modules:
- `Wrappers`: `Option`.
- `Text`: the ECMAScript `\s` class, `trim`, the truthiness of strings, `startsWith`, ASCII `toLowerCase`.
- `FeedTypes`: the feed registry entry, the parsed item, `FeedItem`.
- `Html`: `stripHtml`.
- `Excerpt`: `createExcerpt`.
- `Images`: `extractImage`, including a scanner for the `<img … src=…>` pattern.
- `Items`: the per-item mapping and `fetchFeed`.
- `Collections`: the `seen`-set filter, concatenation, and the all-or-nothing map of a `try` block.
- `Sorting`: the stable descending sort.
- `Aggregate`: `getAllFeedItems` and `applyDefaultImages`.
- `Contact`: `onRequestPost`.

Three things the model cannot compute are passed in instead: clock
readings, date parsing and URL parsing. They arrive as a `Host` value of
pure functions. What the network returned for a feed is passed in as a
`FetchOutcome`. For the contact form, two things are passed in as well:
- whether the form body parsed;
- whether each of the two bucket writes succeeded.

Three facts about the code shape the model:
- An excerpt is at most 160 characters long: 157 kept characters plus
  `...`.
- When the first 157 characters hold no whitespace at all, the excerpt
  cuts that word in the middle, because `\s+\S*$` only matches when
  there is whitespace. When they do hold whitespace, everything from the
  leftmost whitespace run that is followed only by non-whitespace up to
  the 157th character is dropped.
- Feeds are merged in registry order, because `Promise.allSettled` keeps
  input order and `fetchFeed` never rejects. Each feed contributes what
  `fetchFeed` returns as written, so a feed with one undatable item
  contributes nothing (see "## Findings").

## Model

| member | source | states |
|---|---|---|
| Text.Trim | src/lib/rss.ts:75 | the result is a slice of the input with only whitespace before and after it, and has no whitespace at either end; it is empty exactly when the input is all whitespace; an input already trimmed comes back unchanged |
| Text.Or | src/lib/rss.ts:76 | `o \|\| fallback` for a string: a present, non-empty value wins, and `null`, `undefined` or `""` give the fallback |
| Text.ToLower | src/lib/rss.ts:104 | the same length, with every character folded by `ToLowerChar` (ASCII letters moved down by 32, everything else unchanged) |
| FeedTypes.FirstPresent | src/lib/rss.ts:32 | `a \|\| b \|\| … \|\| ''`: the first present field when every field before it is absent or empty, and `""` when none is present |
| Html.RemoveTags | src/lib/rss.ts:42 | the result has no `<…>` tag left, is no longer than the input, and is the input itself when the input has none |
| Html.RemoveTagsDropsTag | src/lib/rss.ts:42 | text before a tag is kept, the tag `<inner>` disappears, and the rest is processed on its own |
| Html.ReplaceAll | src/lib/rss.ts:43-48 | `replace(/pat/g, rep)`: text without the first character of `pat` comes back unchanged, and a replacement no longer than `pat` never lengthens the text |
| Html.ReplaceAllAtFirstOccurrence | src/lib/rss.ts:43-48 | at the first occurrence of `pat` the text before it is kept, the occurrence becomes `rep`, and the search resumes after it |
| Html.ReplaceAllExample | src/lib/rss.ts:45 | `x&lt;y` becomes `x<y` |
| Html.ReplaceAllNoOccurrence | src/lib/rss.ts:43-48 | text in which `pat` occurs nowhere comes back unchanged, even when it holds characters of `pat` |
| Html.DecodeEntitiesNoEntity | src/lib/rss.ts:43-48 | text holding none of the six entities comes back unchanged |
| Html.BareAmpersandKept | src/lib/rss.ts:43-48 | `AT&T` survives decoding |
| Html.DecodeEntities | src/lib/rss.ts:43-48 | text without `&` comes back unchanged, and decoding never lengthens the text |
| Html.DoubleDecoding | src/lib/rss.ts:44-45 | the replacements run one after the other, so `&amp;lt;` becomes `<` |
| Html.EllipsisEntityKept | src/lib/rss.ts:43-48 | entities outside the six listed ones, such as `&hellip;`, are left as they are |
| Html.CollapseWhitespace | src/lib/rss.ts:49 | `replace(/\s+/g, ' ')`: non-empty text stays non-empty and keeps a non-whitespace first character; every whitespace character left is a plain space; text without whitespace comes back unchanged |
| Html.CollapseTrimIsJoin | src/lib/rss.ts:49-50 | collapsing `\s+` to one space and trimming gives the words of the text joined by single spaces |
| Html.WordsAreWords | src/lib/rss.ts:49 | every word of a text is non-empty and holds no whitespace |
| Html.JoinWordsNormalized | src/lib/rss.ts:49-50 | joining non-empty words with single spaces gives text without leading, trailing or doubled whitespace, and its only whitespace is `' '` |
| Html.StripHtml | src/lib/rss.ts:40-51 | the result is the words of the tag-free, entity-decoded text joined by single spaces; it has no leading, trailing or doubled whitespace, and every whitespace character in it is a plain space |
| Excerpt.ExcerptSource | src/lib/rss.ts:54 | the first present of `contentSnippet`, `content:encodedSnippet`, `content` and `summary`, in that order, else `""` |
| Excerpt.DropPartialWord | src/lib/rss.ts:57 | `replace(/\s+\S*$/, '')`: a prefix of the input that is the whole input when it holds no whitespace, and otherwise ends at the leftmost position where a whitespace run followed only by non-whitespace reaches the end |
| Excerpt.Shorten | src/lib/rss.ts:56-57 | text of at most 160 characters passes unchanged; longer text becomes a prefix of its first 157 characters, cut at the leftmost trailing-word position, followed by `...`; for normalised text the kept part ends in a non-space |
| Excerpt.CreateExcerpt | src/lib/rss.ts:53-58 | at most 160 characters; the stripped source when it fits; otherwise the stripped source cut at a word boundary within its first 157 characters, ending in a non-space and then `...` |
| Images.InlineSource | src/lib/rss.ts:32 | `content:encoded` when present, else `content` when present, else `""` |
| Images.ImageEnclosure | src/lib/rss.ts:30 | an enclosure counts only with a non-empty URL and a type that starts with `image` |
| Images.ImageEnclosureChosen | src/lib/rss.ts:26-30 | without media content or a thumbnail, an enclosure with a URL and a type starting with `image` is the image, whatever the content holds |
| Images.FindImg | src/lib/rss.ts:33 | the leftmost start at or after `p` where `<img[^>]+src=["']…["']` matches without regard to case, with the greedy end of `[^>]+`; `None` exactly when no match starts there or later |
| Images.FirstInlineImage | src/lib/rss.ts:33-34 | `None` exactly when the pattern matches nowhere; otherwise the non-empty capture of the leftmost match with the greedy `[^>]+` |
| Images.ExtractImage | src/lib/rss.ts:24-38 | any image found is a non-empty string |
| Images.ExtractImageIsFirstCandidate | src/lib/rss.ts:24-38 | the image is the first available of media content, media thumbnail, image enclosure, inline `<img>` and `itunes:image`, in that order, and it is null only when all five are empty |
| Images.NonImageEnclosureIgnored | src/lib/rss.ts:30 | an enclosure whose type does not start with `image` changes nothing |
| Images.MediaContentWins | src/lib/rss.ts:26 | a present `media:content` URL is chosen whatever else the item carries |
| Items.Title | src/lib/rss.ts:75 | a non-empty title: `Untitled` for a missing or blank title, otherwise the trimmed title |
| Items.TitleIsTrimmed | src/lib/rss.ts:75 | a title never starts or ends with whitespace |
| Items.Link | src/lib/rss.ts:76 | a non-empty link: the item's link, or `#` when it is missing or empty |
| Items.PubDate | src/lib/rss.ts:77 | `pubDate`, then `isoDate`, then the current time |
| Items.IsoDateAsWritten | src/lib/rss.ts:78 | `isoDate` when present, the current time when neither date is present, and a thrown error exactly when only an unparsable `pubDate` is present |
| Items.IsoDate | src/lib/rss.ts:78 | where the code does not throw it agrees with it; where it throws it gives the current time |
| Items.MapItem | src/lib/rss.ts:74-83 | a non-empty title with no whitespace at either end, a non-empty link, an excerpt of at most 160 characters, an image that is absent or non-empty, the `isoDate` the code computes whenever it does not throw, and the feed's label and origin as the source; each of title, link, `pubDate`, excerpt and image is the one its own rule gives for the item |
| Items.MapItemValues | src/lib/rss.ts:75-80 | the title is `Untitled` for a missing or blank title and otherwise the trimmed title; the link is the item's link or `#`; `pubDate` is `pubDate`, then `isoDate`, then now; the image is the first available of the five sources |
| Items.MapItemAsWritten | src/lib/rss.ts:74-83 | the mapping throws exactly when the feed URL does not parse or the date conversion throws, and otherwise agrees with `MapItem` |
| Items.FetchFeedAsWritten | src/lib/rss.ts:72-87 | an unreachable feed, or a single throwing item, gives `[]`; otherwise one mapped item per parsed item, in order |
| Items.FetchFeed | src/lib/rss.ts:72-87 | an unreachable feed or an unparsable feed URL gives `[]`; otherwise one mapped item per parsed item, in order |
| Items.FetchFeedAgreesWhenDatesParse | src/lib/rss.ts:72-87 | when no item's date conversion throws, the written `fetchFeed` and the corrected one give the same items |
| Items.InvalidDateDropsFeed | src/lib/rss.ts:78 | one item with no `isoDate` and an unparsable `pubDate` empties the feed as written |
| Items.FetchFeedAgreesWhenNoDateFails | src/lib/rss.ts:72-87 | wherever the written `fetchFeed` returns items, the corrected one returns the same items |
| Items.InvalidDateExample | src/lib/rss.ts:78 | a concrete two-item feed that the written code drops entirely and the corrected code keeps, with the bad item dated now |
| Collections.Dedup | src/lib/rss.ts:102-108 | the `seen`-set filter returns the elements that are the first of their key, in input order |
| Collections.FirstOccurrencesKeys | src/lib/rss.ts:102-108 | the kept elements have pairwise distinct keys, and between them they cover every key of the input |
| Collections.FirstOccurrencesIsSubsequence | src/lib/rss.ts:103 | the filter only drops elements; it never reorders or invents one |
| Collections.FirstOccurrencesKeepsFirst | src/lib/rss.ts:105-107 | the first element of every key is kept |
| Collections.FirstOccurrencesAppend | src/lib/rss.ts:102-108 | filtering `a + b` keeps what filtering `a` keeps, then the elements `b` keeps on its own whose key does not occur in `a` |
| Collections.MapAllOrNothing | src/lib/rss.ts:72-87 | `map` inside `try`, with `catch` returning `[]`: one failing element empties the result; otherwise every result, in order; a non-empty result means every element succeeded |
| Collections.ConcatMembers | src/lib/rss.ts:95-99 | every item of every part is in the concatenation and nothing else is; it is empty exactly when every part is |
| Collections.ConcatSplit | src/lib/rss.ts:95-99 | concatenating parts splits at any index into the concatenation of the two halves |
| Collections.ConcatDropEmpty | src/lib/rss.ts:95-99 | an empty part contributes nothing to the concatenation |
| Sorting.Insert | src/lib/rss.ts:111 | inserting into a newest-first sequence keeps it newest-first and adds exactly the one element; the new first element is either the inserted one or the old first |
| Sorting.SortDesc | src/lib/rss.ts:111 | the result is ordered by non-increasing time and is a permutation of the input |
| Sorting.SortStable | src/lib/rss.ts:111 | the elements sharing any one time come out in their input order (`Array.prototype.sort` is stable) |
| Sorting.SortKeySet | src/lib/rss.ts:111 | sorting keeps the set of link keys |
| Sorting.SortDistinct | src/lib/rss.ts:111 | sorting keeps link keys distinct |
| Aggregate.LinkKey | src/lib/rss.ts:104 | one trailing `/` is dropped if present, and every character is folded to lower case |
| Aggregate.TrailingSlashIgnored | src/lib/rss.ts:104 | a link and the same link with a trailing `/` get the same key |
| Aggregate.OnlyOneSlashRemoved | src/lib/rss.ts:104 | `/$` removes one slash only, so a doubled slash still makes the key different |
| Aggregate.CaseIgnored | src/lib/rss.ts:104 | links that differ only in letter case get the same key |
| Aggregate.LinkKeyExample | src/lib/rss.ts:104 | concrete links, with and without a trailing slash and with different letter case, get equal or different keys as expected |
| Aggregate.TimeKey | src/lib/rss.ts:111 | the sort key depends on `isoDate` only: items with the same `isoDate` compare as equal |
| Aggregate.Batches | src/lib/rss.ts:92-99 | one result per feed of the registry, in order, each being what the written `fetchFeed` returns for that feed; an unreachable feed's result is empty |
| Aggregate.MergeSingle | src/lib/rss.ts:92-99 | a registry of one feed merges to exactly what the written `fetchFeed` returns for it |
| Aggregate.UndatableFeedDropped | src/lib/rss.ts:78-99 | a feed with one item lacking `isoDate` whose `pubDate` does not parse contributes nothing: the merge equals that of the registry without it |
| Aggregate.Merge | src/lib/rss.ts:92-99 | every item of every feed's result is in the merge and nothing else is; a registry of unreachable feeds merges to nothing |
| Aggregate.MergeAgreesWhenDatesParse | src/lib/rss.ts:72-99 | when every item's date converts, the written merge equals the merge of the corrected `fetchFeed` |
| Aggregate.MergeSplit | src/lib/rss.ts:92-99 | the merge of a registry is the merge of its first `i` feeds followed by the merge of the rest |
| Aggregate.IsolatedFailure | src/lib/rss.ts:84-87 | an unreachable feed changes nothing: the merge equals that of the registry without it |
| Aggregate.Unique | src/lib/rss.ts:101-108 | the deduplicated items have distinct link keys, cover every key of the merge, and are a subsequence of it |
| Aggregate.EarlierFeedWins | src/lib/rss.ts:92-108 | the first `i` feeds keep what they would keep alone, and later feeds contribute only items whose link key the first `i` feeds do not carry |
| Aggregate.GetAllFeedItems | src/lib/rss.ts:90-114 | the result is ordered newest first, is a permutation of the deduplicated merge, has distinct link keys, carries every link key of the merge, and is the stable newest-first sort of the deduplicated merge; every item's `isoDate` time is at least that of every later item |
| Aggregate.ApplyDefaultImages | src/lib/rss.ts:116-121 | the same items in the same order, with only the image changed: a non-empty image is kept, and a null or empty one becomes `/default-article.jpg` |
| Aggregate.ApplyDefaultImagesIdempotent | src/lib/rss.ts:116-121 | after the pass every item has a non-empty image, so a second pass changes nothing |
| Contact.Trimmed | functions/api/contact.ts:25-27 | an absent field stays absent; a present one is trimmed, and is then empty exactly when it was all whitespace |
| Contact.MissingRequired | functions/api/contact.ts:25-31 | a required field is missing exactly when the name, the email or the message is absent or all whitespace |
| Contact.IsValidEmail | functions/api/contact.ts:38-39 | any address it accepts has no whitespace |
| Contact.IsValidEmailMatchesPattern | functions/api/contact.ts:38 | the scanner accepts exactly the strings that `^[^\s@]+@[^\s@]+\.[^\s@]+$` matches |
| Contact.EmailAccepted | functions/api/contact.ts:38 | `a@b.co` and `a@b..` are accepted |
| Contact.EmailRejected | functions/api/contact.ts:38 | `a@b.`, `a@.b` and `a@b@c.d` are refused |
| Contact.LastSegment | functions/api/contact.ts:72 | `split('.').pop()`: a suffix of the name with no `.`, preceded by a `.` unless it is the whole name |
| Contact.Extension | functions/api/contact.ts:72 | a non-empty extension without `.` |
| Contact.ExtensionAfterLastDot | functions/api/contact.ts:72 | `base.ext` has extension `ext`, whatever `base` holds |
| Contact.ExtensionWithoutDot | functions/api/contact.ts:72 | a name without `.` is its own extension |
| Contact.ExtensionFallback | functions/api/contact.ts:72 | a name ending in `.`, or an empty name, gets `jpg` |
| Contact.AttachmentKey | functions/api/contact.ts:73 | the key lies under `attachments/`, is `13 + \|id\| + \|ext\|` characters long, and its own extension is the file name's |
| Contact.StoredKey | functions/api/contact.ts:54-84 | a key is recorded exactly when a non-empty file was sent and its upload succeeded |
| Contact.HandleContact | functions/api/contact.ts:9-133 | an unparsable body gives 500; a honeypot gives 200 and stores nothing; then missing fields give 400, then a bad email gives 400; after those, a non-empty file over 5 MiB gives 400 `FileTooLarge`, and one within the limit that is not `image/…` gives 400 `NotAnImage`, neither storing anything; those two answers happen only for such a file; a valid form gives 500 when the store fails; success happens exactly for a valid form whose store succeeds, and it saves the trimmed fields with the recorded key |
| Contact.HoneypotFirst | functions/api/contact.ts:15-22 | with the honeypot filled, nothing else (the fields, the file, the outcome of either write) changes the 200 answer |
| Contact.RequiredBeforeEmail | functions/api/contact.ts:30-44 | a blank name is reported as missing even when the email is malformed too |
| Contact.SizeBoundary | functions/api/contact.ts:55-70 | exactly 5 MiB is accepted; one byte more is refused, and the size error is reported before the type error |
| Contact.NoFileSkipsChecks | functions/api/contact.ts:55 | an absent or empty file is never refused for size or type, and no key is recorded |
| Contact.StorageOutcomes | functions/api/contact.ts:75-114 | a failed upload still stores the submission, without a key; a successful upload records `attachments/<id>.<ext>`; a failed store is a 500 |

## Left out

- Fetching, parsing and timeouts: `rss-parser`, the network and `FETCH_TIMEOUT` are out of the model. Each feed arrives as a `FetchOutcome`: either the parsed items or `Unreachable`.
- Dates and URLs: `new Date(…)`, `toISOString`, `getTime` and `new URL(…).origin` are the functions of a `Host` value. The model does not parse dates or URLs itself.
- Items.PubDate and Items.IsoDate read a single `nowIso`. The source reads the clock separately at rss.ts:77 and rss.ts:78, and the two reads may differ by a millisecond.
- Aggregate.GetAllFeedItems: `time(b) - time(a)` on `NaN` times is not modelled. `Host.timeOf` returns an integer for every date.
- Images.ExtractImage: `item['media:content']?.$.url` (and the same for `media:thumbnail` and `itunes:image`) throws a `TypeError` when the field exists but has no `$`. The throw empties the whole feed through the catch at rss.ts:84-87. The model's `Option` fields have no such state.
- Excerpt.CreateExcerpt: `clean.length <= 160` and `substring(0, 157)` at rss.ts:56-57 count UTF-16 code units; the model counts Unicode scalar values, so an excerpt with characters outside the Basic Multilingual Plane can be cut at a different place.
- Text.ToLower folds ASCII letters only. `toLowerCase` also folds non-ASCII letters, so links differing only in the case of a non-ASCII letter get different keys in the model.
- Excerpt.Shorten counts Unicode scalar values. JavaScript `length` and `substring` count UTF-16 code units, so text outside the Basic Multilingual Plane is cut at a different position, and possibly inside a surrogate pair.
- Aggregate.LinkKey folds ASCII letters only. `toLowerCase` also folds non-ASCII letters.
- Images.FirstInlineImage folds ASCII letters only for the `i` flag. That is enough for the literals `<img` and `src=`.
- Contact.HandleContact leaves out several things:
  - the IP address, the timestamp and the user agent stored with a submission;
  - the bucket metadata;
  - `console` logging;
  - how `submissionId` is generated from the clock and `Math.random`. It is taken as the `id` parameter.
- Contact.HandleContact treats the `website`, text and `attachment` fields as strings or files. A file in the `website` field is always truthy in the source, and that case is not modelled. Neither is a file in a text field, nor a string in the `attachment` field.
- Contact.HandleContact: an attachment that was uploaded before a failed store stays in the bucket. The model records only the response.
- The Astro pages, the layout and the feed registry JSON are presentation and data, not logic.

## Findings

| source | as written | input that shows it | evidently intended | confidence | as-written member | corrected member |
|---|---|---|---|---|---|---|
| src/lib/rss.ts:78 | `new Date(item.pubDate \|\| Date.now()).toISOString()` throws `RangeError` for an unparsable `pubDate`; the throw is caught at rss.ts:84-87 and the whole feed returns `[]` | a feed with one good item and one item with no `isoDate` and `pubDate: "yesterday"` (Items.InvalidDateExample) | only the bad item is affected, and it falls back to the current time as the other date defaults do | medium, not executed | Items.IsoDateAsWritten, Items.FetchFeedAsWritten, Items.InvalidDateDropsFeed, Aggregate.UndatableFeedDropped | Items.IsoDate, Items.FetchFeed, Items.FetchFeedAgreesWhenNoDateFails, Items.FetchFeedAgreesWhenDatesParse, Aggregate.MergeAgreesWhenDatesParse |

=== FILE: aggregate.dfy ===
/**
 * `getAllFeedItems` and `applyDefaultImages` of src/lib/rss.ts: the
 * per-feed results are concatenated in registry order, the duplicates by
 * normalised link are dropped (the first one wins), the rest is sorted
 * newest first, and a presentation pass fills in missing images.
 */
module Aggregate {
  import opened Wrappers
  import opened Text
  import opened FeedTypes
  import opened Collections
  import opened Sorting
  import Items

  const DefaultImage: string := "/default-article.jpg"

  /** `link.replace(/\/$/, '').toLowerCase()`: one trailing `/` removed, then lower case. */
  function LinkKey(link: string): (k: string)
    ensures |k| == (if EndsWith(link, "/") then |link| - 1 else |link|)
    ensures forall i :: 0 <= i < |k| ==> k[i] == ToLowerChar(link[i])
  {
    var stripped := if EndsWith(link, "/") then link[..|link| - 1] else link;
    ToLower(stripped)
  }

  /** The dedup key of an item. */
  function ItemKey(item: FeedItem): string {
    LinkKey(item.link)
  }

  /** The sort key of an item: `new Date(item.isoDate).getTime()`. */
  function TimeKey(host: Items.Host): (time: FeedItem -> int)
    ensures forall a: FeedItem, b: FeedItem :: a.isoDate == b.isoDate ==> time(a) == time(b)
  {
    (item: FeedItem) => host.timeOf(item.isoDate)
  }

  /** A link without a trailing slash and the same link with one share their key. */
  lemma TrailingSlashIgnored(link: string)
    ensures !EndsWith(link, "/") ==> LinkKey(link + "/") == LinkKey(link)
  {
    var l := link + "/";
    assert EndsWith(l, "/");
    assert l[..|l| - 1] == link;
  }

  /** Only one slash is removed: a doubled slash still tells the links apart. */
  lemma OnlyOneSlashRemoved(link: string)
    ensures LinkKey(link + "//") == LinkKey(link + "/") + "/"
  {
    var l := link + "//";
    assert EndsWith(l, "/") && EndsWith(link + "/", "/");
    assert l[..|l| - 1] == link + "/";
    assert (link + "/")[..|link|] == link;
  }

  /** Links that differ only in ASCII letter case share their key. */
  lemma CaseIgnored(link: string)
    ensures LinkKey(ToLower(link)) == LinkKey(link)
  {
    var low := ToLower(link);
    assert EndsWith(low, "/") <==> EndsWith(link, "/") by {
      if |link| > 0 {
        assert low[|low| - 1] == ToLowerChar(link[|link| - 1]);
      }
    }
  }

  lemma LinkKeyExample()
    ensures LinkKey("https://A.io/x/") == LinkKey("https://a.io/x")
    ensures LinkKey("https://a.io/x//") != LinkKey("https://a.io/x")
  {
    OnlyOneSlashRemoved("https://a.io/x");
    TrailingSlashIgnored("https://a.io/x");
    CaseIgnored("https://A.io/x/");
    assert ToLower("https://A.io/x/") == "https://a.io/x/";
  }

  /** `fetchFeed` as written, for one host. */
  function Fetcher(host: Items.Host): (FeedConfig, Items.FetchOutcome) -> seq<FeedItem> {
    (feed: FeedConfig, outcome: Items.FetchOutcome) => Items.FetchFeedAsWritten(feed, outcome, host)
  }

  /** The result of every feed as `fetchFeed` is written, in registry order. */
  function Batches(feeds: seq<FeedConfig>, outcomes: seq<Items.FetchOutcome>, host: Items.Host): (b: seq<seq<FeedItem>>)
    requires |feeds| == |outcomes|
    ensures |b| == |feeds|
    ensures forall i :: 0 <= i < |b| ==> b[i] == Items.FetchFeedAsWritten(feeds[i], outcomes[i], host)
    ensures forall i :: 0 <= i < |b| && outcomes[i].Unreachable? ==> b[i] == []
  {
    MapPairs(feeds, outcomes, Fetcher(host))
  }

  /**
   * The fulfilled results pushed one feed after the other. `fetchFeed` never
   * rejects, so every feed contributes, an unreachable one with nothing.
   */
  function Merge(feeds: seq<FeedConfig>, outcomes: seq<Items.FetchOutcome>, host: Items.Host): (r: seq<FeedItem>)
    requires |feeds| == |outcomes|
    ensures (forall i :: 0 <= i < |outcomes| ==> outcomes[i].Unreachable?) ==> r == []
    ensures forall i, x :: 0 <= i < |feeds| && x in Batches(feeds, outcomes, host)[i] ==> x in r
    ensures forall x :: x in r ==> exists i :: 0 <= i < |feeds| && x in Batches(feeds, outcomes, host)[i]
  {
    ConcatMembers(Batches(feeds, outcomes, host));
    Concat(Batches(feeds, outcomes, host))
  }

  /** The merge of a registry is the merge of its first `i` feeds followed by the merge of the rest. */
  lemma MergeSplit(feeds: seq<FeedConfig>, outcomes: seq<Items.FetchOutcome>, host: Items.Host, i: nat)
    requires |feeds| == |outcomes| && i <= |feeds|
    ensures Merge(feeds, outcomes, host)
         == Merge(feeds[..i], outcomes[..i], host) + Merge(feeds[i..], outcomes[i..], host)
  {
    ConcatSplit(Batches(feeds, outcomes, host), i);
    MapPairsSlices(feeds, outcomes, Fetcher(host), i);
  }

  /** Leaving feed `i` out of the registry leaves its result out of the batches. */
  lemma BatchesWithout(feeds: seq<FeedConfig>, outcomes: seq<Items.FetchOutcome>, host: Items.Host, i: nat)
    requires |feeds| == |outcomes| && i < |feeds|
    ensures Batches(feeds[..i] + feeds[i + 1..], outcomes[..i] + outcomes[i + 1..], host)
         == Batches(feeds, outcomes, host)[..i] + Batches(feeds, outcomes, host)[i + 1..]
  {
    MapPairsWithout(feeds, outcomes, Fetcher(host), i);
  }

  /** An unreachable feed changes nothing: the result is that of the registry without it. */
  lemma IsolatedFailure(feeds: seq<FeedConfig>, outcomes: seq<Items.FetchOutcome>, host: Items.Host, i: nat)
    requires |feeds| == |outcomes| && i < |feeds| && outcomes[i].Unreachable?
    ensures Merge(feeds, outcomes, host)
         == Merge(feeds[..i] + feeds[i + 1..], outcomes[..i] + outcomes[i + 1..], host)
  {
    var b := Batches(feeds, outcomes, host);
    assert b[i] == [];
    ConcatDropEmpty(b, i);
    BatchesWithout(feeds, outcomes, host, i);
  }

  /** A registry of one feed merges to exactly what the written `fetchFeed` returns for it. */
  lemma MergeSingle(feed: FeedConfig, outcome: Items.FetchOutcome, host: Items.Host)
    ensures Merge([feed], [outcome], host) == Items.FetchFeedAsWritten(feed, outcome, host)
  {
    var b := Batches([feed], [outcome], host);
    assert b[1..] == [];
    assert Concat(b) == b[0] + Concat(b[1..]);
  }

  /**
   * A reachable feed with one item that has no `isoDate` and an unparsable
   * `pubDate` contributes nothing: the merge is that of the registry without it.
   */
  lemma UndatableFeedDropped(feeds: seq<FeedConfig>, outcomes: seq<Items.FetchOutcome>, host: Items.Host, i: nat, j: nat)
    requires |feeds| == |outcomes| && i < |feeds| && outcomes[i].Parsed? && j < |outcomes[i].items|
    requires var item := outcomes[i].items[j];
             !Present(item.isoDate) && Present(item.pubDate) && host.isoOf(item.pubDate.value).None?
    ensures Merge(feeds, outcomes, host)
         == Merge(feeds[..i] + feeds[i + 1..], outcomes[..i] + outcomes[i + 1..], host)
  {
    var b := Batches(feeds, outcomes, host);
    Items.InvalidDateDropsFeed(feeds[i], outcomes[i].items, host, j);
    assert b[i] == [];
    ConcatDropEmpty(b, i);
    BatchesWithout(feeds, outcomes, host, i);
  }

  /** The merge with the corrected date fallback of `Items.FetchFeed`. */
  function MergeCorrected(feeds: seq<FeedConfig>, outcomes: seq<Items.FetchOutcome>, host: Items.Host): seq<FeedItem>
    requires |feeds| == |outcomes|
  {
    Concat(seq(|feeds|, i requires 0 <= i < |feeds| => Items.FetchFeed(feeds[i], outcomes[i], host)))
  }

  /** When every item's date converts, the written merge and the corrected one are the same. */
  lemma MergeAgreesWhenDatesParse(feeds: seq<FeedConfig>, outcomes: seq<Items.FetchOutcome>, host: Items.Host)
    requires |feeds| == |outcomes|
    requires forall i, j :: 0 <= i < |outcomes| && outcomes[i].Parsed? && 0 <= j < |outcomes[i].items|
               ==> Items.IsoDateAsWritten(outcomes[i].items[j], host).Some?
    ensures Merge(feeds, outcomes, host) == MergeCorrected(feeds, outcomes, host)
  {
    var b := Batches(feeds, outcomes, host);
    var c := seq(|feeds|, i requires 0 <= i < |feeds| => Items.FetchFeed(feeds[i], outcomes[i], host));
    forall i | 0 <= i < |feeds|
      ensures b[i] == c[i]
    {
      Items.FetchFeedAgreesWhenDatesParse(feeds[i], outcomes[i], host);
    }
    assert b == c;
  }

  /** The deduplicated items, before sorting. */
  function Unique(feeds: seq<FeedConfig>, outcomes: seq<Items.FetchOutcome>, host: Items.Host): (r: seq<FeedItem>)
    requires |feeds| == |outcomes|
    ensures DistinctKeys(r, ItemKey)
    ensures KeysOf(r, ItemKey) == KeysOf(Merge(feeds, outcomes, host), ItemKey)
    ensures IsSubsequence(r, Merge(feeds, outcomes, host))
  {
    var merged := Merge(feeds, outcomes, host);
    FirstOccurrencesKeys(merged, ItemKey);
    FirstOccurrencesIsSubsequence(merged, ItemKey);
    FirstOccurrences(merged, ItemKey)
  }

  /**
   * Duplicates across feeds resolve in registry order: the first `i` feeds
   * keep everything they would keep alone, and the later feeds add only
   * items whose key the first `i` feeds do not carry.
   */
  lemma EarlierFeedWins(feeds: seq<FeedConfig>, outcomes: seq<Items.FetchOutcome>, host: Items.Host, i: nat)
    requires |feeds| == |outcomes| && i <= |feeds|
    ensures Unique(feeds, outcomes, host)
         == Unique(feeds[..i], outcomes[..i], host)
          + Without(Unique(feeds[i..], outcomes[i..], host), ItemKey,
                    KeysOf(Merge(feeds[..i], outcomes[..i], host), ItemKey))
  {
    MergeSplit(feeds, outcomes, host, i);
    FirstOccurrencesAppend(Merge(feeds[..i], outcomes[..i], host), Merge(feeds[i..], outcomes[i..], host), ItemKey);
  }

  /** `getAllFeedItems`: merge, the `seen`-set filter, then the stable sort newest first. */
  method GetAllFeedItems(feeds: seq<FeedConfig>, outcomes: seq<Items.FetchOutcome>, host: Items.Host)
    returns (r: seq<FeedItem>)
    requires |feeds| == |outcomes|
    ensures SortedDesc(r, TimeKey(host))
    ensures multiset(r) == multiset(Unique(feeds, outcomes, host))
    ensures DistinctKeys(r, ItemKey)
    ensures KeysOf(r, ItemKey) == KeysOf(Merge(feeds, outcomes, host), ItemKey)
    ensures r == SortDesc(Unique(feeds, outcomes, host), TimeKey(host))
    ensures forall i, j :: 0 <= i < j < |r| ==> host.timeOf(r[i].isoDate) >= host.timeOf(r[j].isoDate)
  {
    var merged := Merge(feeds, outcomes, host);
    var unique := Dedup(merged, ItemKey);
    assert unique == Unique(feeds, outcomes, host);
    var time := TimeKey(host);
    SortKeySet(unique, time, ItemKey);
    SortDistinct(unique, time, ItemKey);
    r := SortDesc(unique, time);
  }

  /** `applyDefaultImages`: an item without an image (null or empty) gets the default one. */
  function ApplyDefaultImages(items: seq<FeedItem>): (r: seq<FeedItem>)
    ensures |r| == |items|
    ensures forall i :: 0 <= i < |r| ==> r[i].(image := items[i].image) == items[i]
    ensures forall i :: 0 <= i < |r| && Present(items[i].image) ==> r[i].image == items[i].image
    ensures forall i :: 0 <= i < |r| && !Present(items[i].image) ==> r[i].image == Some(DefaultImage)
  {
    seq(|items|, i requires 0 <= i < |items| => items[i].(image := Some(Or(items[i].image, DefaultImage))))
  }

  /** Every item leaves the pass with a non-empty image, so a second pass changes nothing. */
  lemma ApplyDefaultImagesIdempotent(items: seq<FeedItem>)
    ensures forall i :: 0 <= i < |items| ==> Present(ApplyDefaultImages(items)[i].image)
    ensures ApplyDefaultImages(ApplyDefaultImages(items)) == ApplyDefaultImages(items)
  {
    var once := ApplyDefaultImages(items);
    assert Present(Some(DefaultImage));
    assert forall i :: 0 <= i < |once| ==> Present(once[i].image);
  }
}

=== FILE: collections.dfy ===
/**
 * Generic sequence operations behind src/lib/rss.ts: the duplicate filter of
 * `getAllFeedItems` (a `seen` set of keys; an element survives only when its
 * key was not seen before, so the first element of every key wins), the
 * concatenation of the per-feed results, and the all-or-nothing `map` of a
 * `try` block whose `catch` returns `[]`.
 */
module Collections {
  import opened Wrappers

  /** The keys carried by the elements of `s`. */
  ghost function KeysOf<T, K>(s: seq<T>, key: T -> K): set<K> {
    set i | 0 <= i < |s| :: key(s[i])
  }

  /** No two elements of `s` share a key. */
  predicate DistinctKeys<T, K(==)>(s: seq<T>, key: T -> K) {
    forall i, j :: 0 <= i < j < |s| ==> key(s[i]) != key(s[j])
  }

  /** The element at index `i` is the first one carrying its key. */
  predicate FirstOfKey<T, K(==)>(s: seq<T>, key: T -> K, i: int)
    requires 0 <= i < |s|
  {
    forall j :: 0 <= j < i ==> key(s[j]) != key(s[i])
  }

  /** `r` is `s` with some elements left out and the rest kept in order. */
  predicate IsSubsequence<T(==)>(r: seq<T>, s: seq<T>)
    decreases |s|
  {
    if |r| == 0 then true
    else if |s| == 0 then false
    else
      || (r[|r| - 1] == s[|s| - 1] && IsSubsequence(r[..|r| - 1], s[..|s| - 1]))
      || IsSubsequence(r, s[..|s| - 1])
  }

  /**
   * Reference definition of the filter: the elements that are the first of
   * their key, in their original order.
   */
  function FirstOccurrences<T, K(==)>(s: seq<T>, key: T -> K): (r: seq<T>)
    ensures |r| <= |s|
    decreases |s|
  {
    if |s| == 0 then []
    else
      var n := |s| - 1;
      FirstOccurrences(s[..n], key) + (if FirstOfKey(s, key, n) then [s[n]] else [])
  }

  /** The elements of `s` whose key is not in `ks`, in order. */
  function Without<T, K>(s: seq<T>, key: T -> K, ks: set<K>): (r: seq<T>)
    ensures |r| <= |s|
    ensures forall i :: 0 <= i < |r| ==> key(r[i]) !in ks
    decreases |s|
  {
    if |s| == 0 then []
    else
      var n := |s| - 1;
      Without(s[..n], key, ks) + (if key(s[n]) in ks then [] else [s[n]])
  }

  /** Extending the input by one element: it is kept exactly when its key is new. */
  lemma FirstOfKeyLast<T, K>(s: seq<T>, key: T -> K)
    requires |s| > 0
    ensures FirstOfKey(s, key, |s| - 1) <==> key(s[|s| - 1]) !in KeysOf(s[..|s| - 1], key)
  {
    var n := |s| - 1;
    if key(s[n]) in KeysOf(s[..n], key) {
      var j :| 0 <= j < n && key(s[..n][j]) == key(s[n]);
      assert key(s[j]) == key(s[n]);
    }
  }

  lemma KeysOfSnoc<T, K>(s: seq<T>, x: T, key: T -> K)
    ensures KeysOf(s + [x], key) == KeysOf(s, key) + {key(x)}
  {
    var t := s + [x];
    forall k | k in KeysOf(t, key)
      ensures k in KeysOf(s, key) + {key(x)}
    {
      var i :| 0 <= i < |t| && key(t[i]) == k;
      if i < |s| {
        assert key(s[i]) == k;
      }
    }
    forall k | k in KeysOf(s, key)
      ensures k in KeysOf(t, key)
    {
      var i :| 0 <= i < |s| && key(s[i]) == k;
      assert key(t[i]) == k;
    }
    assert key(t[|s|]) == key(x);
  }

  /** `items.filter(...)` with the `seen` set, as the loop runs. */
  method Dedup<T, K(==)>(s: seq<T>, key: T -> K) returns (unique: seq<T>)
    ensures unique == FirstOccurrences(s, key)
  {
    var seen: set<K> := {};
    unique := [];
    for i := 0 to |s|
      invariant seen == KeysOf(s[..i], key)
      invariant unique == FirstOccurrences(s[..i], key)
    {
      var k := key(s[i]);
      var prefix := s[..i + 1];
      assert prefix[..i] == s[..i];
      FirstOfKeyLast(prefix, key);
      KeysOfSnoc(s[..i], s[i], key);
      assert prefix == s[..i] + [s[i]];
      if k !in seen {
        seen := seen + {k};
        unique := unique + [s[i]];
      }
    }
    assert s[..|s|] == s;
  }

  /** The filter keeps every key once: its keys are pairwise distinct and are exactly the input's keys. */
  lemma {:induction false} FirstOccurrencesKeys<T, K>(s: seq<T>, key: T -> K)
    ensures DistinctKeys(FirstOccurrences(s, key), key)
    ensures KeysOf(FirstOccurrences(s, key), key) == KeysOf(s, key)
    decreases |s|
  {
    if |s| > 0 {
      var n := |s| - 1;
      var p := FirstOccurrences(s[..n], key);
      FirstOccurrencesKeys(s[..n], key);
      FirstOfKeyLast(s, key);
      assert s == s[..n] + [s[n]];
      KeysOfSnoc(s[..n], s[n], key);
      if FirstOfKey(s, key, n) {
        KeysOfSnoc(p, s[n], key);
        var r := p + [s[n]];
        forall i, j | 0 <= i < j < |r|
          ensures key(r[i]) != key(r[j])
        {
          if j == |p| {
            assert key(r[i]) in KeysOf(p, key) by {
              assert key(p[i]) == key(r[i]);
            }
          } else {
            assert r[i] == p[i] && r[j] == p[j];
          }
        }
      } else {
        assert FirstOccurrences(s, key) == p;
      }
    }
  }

  /** The filter only leaves elements out; it never reorders or invents one. */
  lemma {:induction false} FirstOccurrencesIsSubsequence<T, K>(s: seq<T>, key: T -> K)
    ensures IsSubsequence(FirstOccurrences(s, key), s)
    decreases |s|
  {
    if |s| > 0 {
      var n := |s| - 1;
      var p := FirstOccurrences(s[..n], key);
      FirstOccurrencesIsSubsequence(s[..n], key);
      if FirstOfKey(s, key, n) {
        var r := p + [s[n]];
        assert r[..|r| - 1] == p;
      } else {
        assert FirstOccurrences(s, key) == p;
        SubsequenceOfLonger(p, s);
      }
    }
  }

  lemma SubsequenceOfLonger<T>(r: seq<T>, s: seq<T>)
    requires |s| > 0 && IsSubsequence(r, s[..|s| - 1])
    ensures IsSubsequence(r, s)
  {
  }

  /** The first element of every key survives, and it is the one that does. */
  lemma {:induction false} FirstOccurrencesKeepsFirst<T, K>(s: seq<T>, key: T -> K, i: int)
    requires 0 <= i < |s| && FirstOfKey(s, key, i)
    ensures s[i] in FirstOccurrences(s, key)
    decreases |s|
  {
    var n := |s| - 1;
    if i == n {
      assert FirstOccurrences(s, key)[|FirstOccurrences(s, key)| - 1] == s[n];
    } else {
      assert FirstOfKey(s[..n], key, i) by {
        forall j | 0 <= j < i
          ensures key(s[..n][j]) != key(s[..n][i])
        {
          assert s[..n][j] == s[j];
        }
      }
      FirstOccurrencesKeepsFirst(s[..n], key, i);
      assert s[..n][i] == s[i];
    }
  }

  lemma WithoutSnoc<T, K>(s: seq<T>, x: T, key: T -> K, ks: set<K>)
    ensures Without(s + [x], key, ks) == Without(s, key, ks) + (if key(x) in ks then [] else [x])
  {
    assert (s + [x])[..|s|] == s;
  }

  /** The last element of `a + b` is the first of its key exactly when it is so in `b` and its key is not in `a`. */
  lemma FirstOfKeyAppendLast<T, K>(a: seq<T>, b: seq<T>, key: T -> K)
    requires |b| > 0
    ensures FirstOfKey(a + b, key, |a + b| - 1)
        <==> key(b[|b| - 1]) !in KeysOf(a, key) && FirstOfKey(b, key, |b| - 1)
  {
    var s := a + b;
    var n := |b| - 1;
    assert s[..|s| - 1] == a + b[..n];
    FirstOfKeyLast(s, key);
    FirstOfKeyLast(b, key);
    KeysOfAppend(a, b[..n], key);
  }

  /** Filtering the keys `ks` out of the first occurrences of `b`, one element at a time from the end. */
  lemma WithoutFirstOccurrencesLast<T, K>(b: seq<T>, key: T -> K, ks: set<K>)
    requires |b| > 0
    ensures Without(FirstOccurrences(b, key), key, ks)
         == Without(FirstOccurrences(b[..|b| - 1], key), key, ks)
          + (if FirstOfKey(b, key, |b| - 1) && key(b[|b| - 1]) !in ks then [b[|b| - 1]] else [])
  {
    var n := |b| - 1;
    var f := FirstOccurrences(b[..n], key);
    if FirstOfKey(b, key, n) {
      assert FirstOccurrences(b, key) == f + [b[n]];
      WithoutSnoc(f, b[n], key, ks);
    } else {
      assert FirstOccurrences(b, key) == f + [];
      assert f + [] == f;
      assert Without(f, key, ks) + [] == Without(f, key, ks);
    }
  }

  lemma AppendAssoc<T>(x: seq<T>, y: seq<T>, z: seq<T>)
    ensures (x + y) + z == x + (y + z)
  {
  }

  /**
   * Filtering a concatenation: everything the first part keeps, then what
   * the second part keeps on its own minus the keys the first part already
   * carries. Whatever comes first wins.
   */
  lemma {:induction false} FirstOccurrencesAppend<T, K>(a: seq<T>, b: seq<T>, key: T -> K)
    ensures FirstOccurrences(a + b, key)
         == FirstOccurrences(a, key) + Without(FirstOccurrences(b, key), key, KeysOf(a, key))
    decreases |b|
  {
    var fa := FirstOccurrences(a, key);
    var ka := KeysOf(a, key);
    if |b| == 0 {
      assert a + b == a;
      assert fa + Without([], key, ka) == fa;
    } else {
      var n := |b| - 1;
      var s := a + b;
      assert s[..|s| - 1] == a + b[..n];
      FirstOccurrencesAppend(a, b[..n], key);
      FirstOfKeyAppendLast(a, b, key);
      WithoutFirstOccurrencesLast(b, key, ka);
      var w := Without(FirstOccurrences(b[..n], key), key, ka);
      var tail := if FirstOfKey(s, key, |s| - 1) then [b[n]] else [];
      calc {
        FirstOccurrences(s, key);
        FirstOccurrences(a + b[..n], key) + tail;
        (fa + w) + tail;
        { AppendAssoc(fa, w, tail); }
        fa + (w + tail);
      }
    }
  }

  /**
   * `f` applied to every element, where `f` may fail: all the results when
   * every application succeeds, and nothing at all as soon as one fails.
   */
  function MapAllOrNothing<A, B>(xs: seq<A>, f: A -> Option<B>): (r: seq<B>)
    ensures (exists i :: 0 <= i < |xs| && f(xs[i]).None?) ==> r == []
    ensures (forall i :: 0 <= i < |xs| ==> f(xs[i]).Some?) ==>
              |r| == |xs| && forall i :: 0 <= i < |r| ==> Some(r[i]) == f(xs[i])
    ensures r != [] ==> |xs| > 0 && forall i :: 0 <= i < |xs| ==> f(xs[i]).Some?
  {
    if forall i :: 0 <= i < |xs| ==> f(xs[i]).Some? then
      seq(|xs|, i requires 0 <= i < |xs| => f(xs[i]).value)
    else []
  }

  /** `f` applied to the pairs of `xs` and `ys` at equal indices. */
  function MapPairs<A, B, C>(xs: seq<A>, ys: seq<B>, f: (A, B) -> C): (r: seq<C>)
    requires |xs| == |ys|
    ensures |r| == |xs|
  {
    seq(|xs|, i requires 0 <= i < |xs| => f(xs[i], ys[i]))
  }

  /** Mapping a slice of the pairs is slicing the mapped pairs. */
  lemma MapPairsSlices<A, B, C>(xs: seq<A>, ys: seq<B>, f: (A, B) -> C, i: nat)
    requires |xs| == |ys| && i <= |xs|
    ensures MapPairs(xs[..i], ys[..i], f) == MapPairs(xs, ys, f)[..i]
    ensures MapPairs(xs[i..], ys[i..], f) == MapPairs(xs, ys, f)[i..]
  {
  }

  /** Leaving the pair at `i` out leaves its image out. */
  lemma MapPairsWithout<A, B, C>(xs: seq<A>, ys: seq<B>, f: (A, B) -> C, i: nat)
    requires |xs| == |ys| && i < |xs|
    ensures MapPairs(xs[..i] + xs[i + 1..], ys[..i] + ys[i + 1..], f)
         == MapPairs(xs, ys, f)[..i] + MapPairs(xs, ys, f)[i + 1..]
  {
    var m := MapPairs(xs, ys, f);
    var us := xs[..i] + xs[i + 1..];
    var bs := ys[..i] + ys[i + 1..];
    var c := MapPairs(us, bs, f);
    var d := m[..i] + m[i + 1..];
    forall k | 0 <= k < |c|
      ensures c[k] == d[k]
    {
      if k < i {
        assert us[k] == xs[k] && bs[k] == ys[k] && d[k] == m[k];
      } else {
        assert us[k] == xs[k + 1] && bs[k] == ys[k + 1] && d[k] == m[k + 1];
      }
    }
  }

  /** The parts one after the other. */
  function Concat<T>(parts: seq<seq<T>>): seq<T>
    decreases |parts|
  {
    if |parts| == 0 then [] else parts[0] + Concat(parts[1..])
  }

  /** Every element of every part is in the concatenation, and nothing else is. */
  lemma {:induction false} ConcatMembers<T>(parts: seq<seq<T>>)
    ensures forall i, x :: 0 <= i < |parts| && x in parts[i] ==> x in Concat(parts)
    ensures forall x :: x in Concat(parts) ==> exists i :: 0 <= i < |parts| && x in parts[i]
    ensures Concat(parts) == [] <==> forall i :: 0 <= i < |parts| ==> parts[i] == []
    decreases |parts|
  {
    if |parts| > 0 {
      var rest := parts[1..];
      ConcatMembers(rest);
      assert Concat(parts) == parts[0] + Concat(rest);
      forall i, x | 0 <= i < |parts| && x in parts[i]
        ensures x in Concat(parts)
      {
        if i > 0 {
          assert parts[i] == rest[i - 1];
        }
      }
      forall x | x in Concat(parts)
        ensures exists i :: 0 <= i < |parts| && x in parts[i]
      {
        if x !in parts[0] {
          var j :| 0 <= j < |rest| && x in rest[j];
          assert x in parts[j + 1];
        }
      }
      assert |Concat(parts)| == |parts[0]| + |Concat(rest)|;
      assert forall i :: 1 <= i < |parts| ==> parts[i] == rest[i - 1];
    }
  }

  /** Concatenating the first `i` parts and the rest separately, then joining the two. */
  lemma {:induction false} ConcatSplit<T>(parts: seq<seq<T>>, i: nat)
    requires i <= |parts|
    ensures Concat(parts) == Concat(parts[..i]) + Concat(parts[i..])
    decreases i
  {
    if i == 0 {
      assert parts[..0] == [] && parts[0..] == parts;
    } else {
      var head := parts[..i];
      ConcatSplit(parts[1..], i - 1);
      assert head[1..] == parts[1..][..i - 1] && head[0] == parts[0];
      assert parts[1..][i - 1..] == parts[i..];
      var a := Concat(head[1..]);
      var b := Concat(parts[i..]);
      calc {
        Concat(parts);
        parts[0] + (a + b);
        { AppendAssoc(parts[0], a, b); }
        (parts[0] + a) + b;
        Concat(head) + b;
      }
    }
  }

  /** An empty part contributes nothing: leaving it out gives the same concatenation. */
  lemma ConcatDropEmpty<T>(parts: seq<seq<T>>, i: nat)
    requires i < |parts| && parts[i] == []
    ensures Concat(parts) == Concat(parts[..i] + parts[i + 1..])
  {
    var q := parts[..i] + parts[i + 1..];
    ConcatSplit(parts, i);
    ConcatSplit(q, i);
    assert q[..i] == parts[..i] && q[i..] == parts[i + 1..];
    assert parts[i..][0] == [] && parts[i..][1..] == parts[i + 1..];
    assert Concat(parts[i..]) == [] + Concat(parts[i + 1..]);
  }

  lemma KeysOfAppend<T, K>(a: seq<T>, b: seq<T>, key: T -> K)
    ensures KeysOf(a + b, key) == KeysOf(a, key) + KeysOf(b, key)
  {
    var s := a + b;
    forall k | k in KeysOf(s, key)
      ensures k in KeysOf(a, key) + KeysOf(b, key)
    {
      var i :| 0 <= i < |s| && key(s[i]) == k;
      if i < |a| {
        assert key(a[i]) == k;
      } else {
        assert key(b[i - |a|]) == k;
      }
    }
    forall k | k in KeysOf(a, key) + KeysOf(b, key)
      ensures k in KeysOf(s, key)
    {
      if k in KeysOf(a, key) {
        var i :| 0 <= i < |a| && key(a[i]) == k;
        assert key(s[i]) == k;
      } else {
        var i :| 0 <= i < |b| && key(b[i]) == k;
        assert key(s[|a| + i]) == k;
      }
    }
  }
}

=== FILE: contact.dfy ===
/**
 * The decision procedure of `onRequestPost` in functions/api/contact.ts:
 * honeypot, required fields, email shape, attachment size and type, the
 * attachment key, and the two storage steps, each with its response. The
 * form parse and the two bucket writes are inputs: `None` for a body that
 * does not parse, and a flag for each write that succeeds.
 */
module Contact {
  import opened Wrappers
  import opened Text

  const MaxAttachmentBytes: nat := 5 * 1024 * 1024
  const FallbackExtension: string := "jpg"

  /** An uploaded file: its byte size, its MIME type and its original name. */
  datatype Attachment = Attachment(size: nat, mimeType: string, fileName: string)

  /** The text fields of the form as sent (`None` when absent) and the file field. */
  datatype Form = Form(
    website: Option<string>,
    name: Option<string>,
    email: Option<string>,
    message: Option<string>,
    attachment: Option<Attachment>)

  datatype Kind =
    | Accepted        // the submission was stored
    | HoneypotIgnored // the hidden field was filled in: pretend success
    | MissingFields
    | InvalidEmail
    | FileTooLarge
    | NotAnImage
    | StoreFailed
    | Unexpected      // the outer `catch`

  /** What is written to `submissions/<id>.json` (the request metadata is left out). */
  datatype Submission = Submission(id: string, name: string, email: string, message: string, attachmentKey: Option<string>)

  datatype Response = Response(status: nat, kind: Kind, saved: Option<Submission>)

  /** `formData.get(field)?.toString().trim()`. */
  function Trimmed(field: Option<string>): (r: Option<string>)
    ensures field.None? <==> r.None?
    ensures field.Some? ==> r.value == Trim(field.value)
    ensures field.Some? ==> (Present(r) <==> !AllWhitespace(field.value))
  {
    match field
    case None => None
    case Some(v) => Some(Trim(v))
  }

  /** `!name || !email || !message` on the trimmed fields. */
  predicate MissingRequired(f: Form): (m: bool)
    ensures m <==> || f.name.None? || AllWhitespace(f.name.value)
                   || f.email.None? || AllWhitespace(f.email.value)
                   || f.message.None? || AllWhitespace(f.message.value)
  {
    !Present(Trimmed(f.name)) || !Present(Trimmed(f.email)) || !Present(Trimmed(f.message))
  }

  // ---- The email pattern `^[^\s@]+@[^\s@]+\.[^\s@]+$` ----

  /** `[^\s@]`. */
  predicate EmailChar(c: char) {
    !IsWhitespace(c) && c != '@'
  }

  /** `[^\s@]+` matches exactly `e[lo..hi]`. */
  predicate EmailRun(e: string, lo: int, hi: int) {
    0 <= lo < hi <= |e| && forall k :: lo <= k < hi ==> EmailChar(e[k])
  }

  /** The pattern matches `e` with its `@` at `at` and its `\.` at `dot`. */
  predicate EmailMatchAt(e: string, at: int, dot: int) {
    && 0 <= at < dot < |e|
    && e[at] == '@' && e[dot] == '.'
    && EmailRun(e, 0, at) && EmailRun(e, at + 1, dot) && EmailRun(e, dot + 1, |e|)
  }

  /** Reference definition: some way of splitting `e` matches the anchored pattern. */
  ghost predicate EmailShape(e: string) {
    exists at, dot :: EmailMatchAt(e, at, dot)
  }

  /**
   * `emailRegex.test(email)` computed by scanning: no whitespace, a first
   * `@` after at least one character and no second `@`, and a `.` that is
   * neither the first character after the `@` nor the last character.
   */
  function IsValidEmail(e: string): (ok: bool)
    ensures ok ==> NoWhitespace(e)
  {
    if !NoWhitespace(e) then false
    else
      match FindChar(e, '@', 0)
      case None => false
      case Some(at) =>
        if at == 0 || FindChar(e, '@', at + 1).Some? then false
        else
          match FindChar(e, '.', at + 2)
          case None => false
          case Some(dot) => dot + 1 < |e|
  }

  lemma EmailShapeSound(e: string, at: nat, dot: nat)
    requires IsValidEmail(e)
    requires FindChar(e, '@', 0) == Some(at) && FindChar(e, '.', at + 2) == Some(dot)
    ensures EmailMatchAt(e, at, dot)
  {
    assert forall k :: 0 <= k < at ==> EmailChar(e[k]);
    assert forall k :: at + 1 <= k < |e| ==> e[k] != '@';
    assert forall k :: at + 1 <= k < dot ==> EmailChar(e[k]);
    assert forall k :: dot + 1 <= k < |e| ==> EmailChar(e[k]);
  }

  lemma EmailShapeComplete(e: string, at: int, dot: int)
    requires EmailMatchAt(e, at, dot)
    ensures IsValidEmail(e)
  {
    assert !IsWhitespace('@') && !IsWhitespace('.');
    assert NoWhitespace(e) by {
      forall k | 0 <= k < |e|
        ensures !IsWhitespace(e[k])
      {
        if k != at && k != dot {
          assert EmailChar(e[k]);
        }
      }
    }
    assert FindChar(e, '@', 0) == Some(at);
    assert forall k :: at + 1 <= k < |e| ==> e[k] != '@' by {
      forall k | at + 1 <= k < |e|
        ensures e[k] != '@'
      {
        if k != dot {
          assert EmailChar(e[k]);
        }
      }
    }
    var first := FindChar(e, '.', at + 2);
    assert first.Some? && first.value <= dot;
  }

  /** The scanner accepts exactly the strings the anchored pattern matches. */
  lemma IsValidEmailMatchesPattern(e: string)
    ensures IsValidEmail(e) <==> EmailShape(e)
  {
    if IsValidEmail(e) {
      var at := FindChar(e, '@', 0).value;
      var dot := FindChar(e, '.', at + 2).value;
      EmailShapeSound(e, at, dot);
    }
    if EmailShape(e) {
      var at, dot :| EmailMatchAt(e, at, dot);
      EmailShapeComplete(e, at, dot);
    }
  }

  /** Several dots in the domain are fine, even two in a row, as long as one has a character on each side. */
  lemma EmailAccepted()
    ensures IsValidEmail("a@b.co")
    ensures IsValidEmail("a@b..")
  {
    EmailShapeComplete("a@b.co", 1, 3);
    EmailShapeComplete("a@b..", 1, 3);
  }

  /** A dot right after the `@` or at the very end does not count, and a second `@` is refused. */
  lemma EmailRejected()
    ensures !IsValidEmail("a@b.")
    ensures !IsValidEmail("a@.b")
    ensures !IsValidEmail("a@b@c.d")
  {
    assert FindChar("a@b@c.d", '@', 0) == Some(1);
    assert FindChar("a@b@c.d", '@', 2) == Some(3);
    assert FindChar("a@.b", '@', 0) == Some(1);
    assert FindChar("a@.b", '.', 3) == None;
    assert FindChar("a@b.", '@', 0) == Some(1);
    assert FindChar("a@b.", '.', 3) == Some(3);
  }

  // ---- Attachment name and key ----

  /** Index just after the last `.` in `name[..end]`, or 0 when there is none. */
  function SegmentStart(name: string, end: nat): (i: nat)
    requires end <= |name|
    ensures i <= end
    ensures forall k :: i <= k < end ==> name[k] != '.'
    ensures i > 0 ==> name[i - 1] == '.'
    decreases end
  {
    if end == 0 then 0
    else if name[end - 1] == '.' then end
    else SegmentStart(name, end - 1)
  }

  /** The last `.` before `end` is just before `j`: the segment starts there. */
  lemma {:induction false} SegmentStartAfterDot(name: string, j: nat, end: nat)
    requires 0 < j <= end <= |name| && name[j - 1] == '.'
    requires forall k :: j <= k < end ==> name[k] != '.'
    ensures SegmentStart(name, end) == j
    decreases end
  {
    if end > j {
      SegmentStartAfterDot(name, j, end - 1);
    }
  }

  /** No `.` before `end`: the segment starts at the beginning. */
  lemma {:induction false} SegmentStartNoDot(name: string, end: nat)
    requires end <= |name|
    requires forall k :: 0 <= k < end ==> name[k] != '.'
    ensures SegmentStart(name, end) == 0
    decreases end
  {
    if end > 0 {
      SegmentStartNoDot(name, end - 1);
    }
  }

  /** `name.split('.').pop()`: the text after the last `.`, or the whole name when it has none. */
  function LastSegment(name: string): (r: string)
    ensures |r| <= |name| && r == name[|name| - |r|..]
    ensures forall k :: 0 <= k < |r| ==> r[k] != '.'
    ensures |r| < |name| ==> name[|name| - |r| - 1] == '.'
  {
    name[SegmentStart(name, |name|)..]
  }

  /** `name.split('.').pop() || 'jpg'`. */
  function Extension(name: string): (ext: string)
    ensures |ext| > 0
    ensures forall k :: 0 <= k < |ext| ==> ext[k] != '.'
  {
    var last := LastSegment(name);
    if |last| > 0 then last else FallbackExtension
  }

  /** The extension of `base.ext` is `ext`, whatever `base` holds. */
  lemma ExtensionAfterLastDot(base: string, ext: string)
    requires |ext| > 0 && forall k :: 0 <= k < |ext| ==> ext[k] != '.'
    ensures Extension(base + "." + ext) == ext
  {
    var s := base + "." + ext;
    assert forall k :: |base| < k < |s| ==> s[k] == ext[k - |base| - 1];
    SegmentStartAfterDot(s, |base| + 1, |s|);
    assert s[|base| + 1..] == ext;
  }

  /** A name without any `.` is its own extension. */
  lemma ExtensionWithoutDot(name: string)
    requires |name| > 0 && forall k :: 0 <= k < |name| ==> name[k] != '.'
    ensures Extension(name) == name
  {
    SegmentStartNoDot(name, |name|);
  }

  /** A name ending in `.`, the empty name included, falls back to `jpg`. */
  lemma ExtensionFallback(name: string)
    ensures Extension(name + ".") == FallbackExtension
    ensures Extension("") == FallbackExtension
  {
    var s := name + ".";
    assert s[|s| - 1] == '.';
  }

  /**
   * `` `attachments/${submissionId}.${ext}` ``: under the attachments folder,
   * and with the extension the file name gives.
   */
  function AttachmentKey(id: string, fileName: string): (key: string)
    ensures |key| == 13 + |id| + |Extension(fileName)|
    ensures StartsWith(key, "attachments/")
    ensures Extension(key) == Extension(fileName)
  {
    var ext := Extension(fileName);
    var base := "attachments/" + id;
    ExtensionAfterLastDot(base, ext);
    StartsWithExtended("attachments/", "attachments/", id);
    StartsWithExtended(base, "attachments/", ".");
    StartsWithExtended(base + ".", "attachments/", ext);
    base + "." + ext
  }

  lemma StartsWithExtended(s: string, prefix: string, t: string)
    requires s == prefix || StartsWith(s, prefix)
    ensures StartsWith(s + t, prefix)
  {
    assert (s + t)[..|prefix|] == s[..|prefix|];
  }

  // ---- The cascade ----

  /** `attachment && attachment.size > 0`. */
  predicate HasFile(f: Form) {
    f.attachment.Some? && f.attachment.value.size > 0
  }

  /** Everything before the storage steps passes. */
  predicate Valid(f: Form) {
    && !Present(f.website)
    && !MissingRequired(f)
    && IsValidEmail(Trimmed(f.email).value)
    && (HasFile(f) ==> f.attachment.value.size <= MaxAttachmentBytes
                        && StartsWith(f.attachment.value.mimeType, "image/"))
  }

  /** The attachment key recorded in the submission: set only when a file was uploaded successfully. */
  function StoredKey(f: Form, id: string, uploadOk: bool): (key: Option<string>)
    ensures key.Some? <==> HasFile(f) && uploadOk
  {
    if HasFile(f) && uploadOk then Some(AttachmentKey(id, f.attachment.value.fileName)) else None
  }

  /** `onRequestPost`, for a body that parses to `form` or fails to (`None`). */
  function HandleContact(form: Option<Form>, id: string, uploadOk: bool, storeOk: bool): (r: Response)
    ensures form.None? ==> r == Response(500, Unexpected, None)
    ensures form.Some? && Present(form.value.website) ==> r == Response(200, HoneypotIgnored, None)
    ensures form.Some? && !Present(form.value.website) && MissingRequired(form.value)
            ==> r == Response(400, MissingFields, None)
    ensures form.Some? && !Present(form.value.website) && !MissingRequired(form.value)
            && !IsValidEmail(Trimmed(form.value.email).value)
            ==> r == Response(400, InvalidEmail, None)
    ensures form.Some? && !Present(form.value.website) && !MissingRequired(form.value)
            && IsValidEmail(Trimmed(form.value.email).value) && HasFile(form.value)
            && form.value.attachment.value.size > MaxAttachmentBytes
            ==> r.status == 400 && r.kind == FileTooLarge && r.saved.None?
    ensures form.Some? && !Present(form.value.website) && !MissingRequired(form.value)
            && IsValidEmail(Trimmed(form.value.email).value) && HasFile(form.value)
            && form.value.attachment.value.size <= MaxAttachmentBytes
            && !StartsWith(form.value.attachment.value.mimeType, "image/")
            ==> r.status == 400 && r.kind == NotAnImage && r.saved.None?
    ensures r.kind == FileTooLarge ==> form.Some? && HasFile(form.value) && form.value.attachment.value.size > MaxAttachmentBytes
    ensures r.kind == NotAnImage ==> form.Some? && HasFile(form.value) && !StartsWith(form.value.attachment.value.mimeType, "image/")
    ensures form.Some? && Valid(form.value) && !storeOk ==> r == Response(500, StoreFailed, None)
    ensures r.kind == Accepted <==> form.Some? && Valid(form.value) && storeOk
    ensures r.kind == Accepted ==> r.status == 200 && r.saved.Some?
    ensures r.saved.Some? ==> r.kind == Accepted && form.Some?
    ensures r.saved.Some? ==>
              r.saved.value == Submission(id, Trimmed(form.value.name).value, Trimmed(form.value.email).value,
                                          Trimmed(form.value.message).value, StoredKey(form.value, id, uploadOk))
  {
    match form
    case None => Response(500, Unexpected, None)
    case Some(f) =>
      if Present(f.website) then Response(200, HoneypotIgnored, None)
      else if MissingRequired(f) then Response(400, MissingFields, None)
      else
        var name := Trimmed(f.name).value;
        var email := Trimmed(f.email).value;
        var message := Trimmed(f.message).value;
        if !IsValidEmail(email) then Response(400, InvalidEmail, None)
        else if HasFile(f) && f.attachment.value.size > MaxAttachmentBytes then Response(400, FileTooLarge, None)
        else if HasFile(f) && !StartsWith(f.attachment.value.mimeType, "image/") then Response(400, NotAnImage, None)
        else if !storeOk then Response(500, StoreFailed, None)
        else Response(200, Accepted, Some(Submission(id, name, email, message, StoredKey(f, id, uploadOk))))
  }

  /** The honeypot decides before anything else, whatever the other fields and storage do. */
  lemma HoneypotFirst(f: Form, g: Form, id: string, uploadOk: bool, storeOk: bool)
    requires Present(f.website) && g.website == f.website
    ensures HandleContact(Some(f), id, uploadOk, storeOk) == HandleContact(Some(g), id, !uploadOk, !storeOk)
    ensures HandleContact(Some(f), id, uploadOk, storeOk).status == 200
  {
  }

  /** A blank required field is reported as such even when the email is malformed too. */
  lemma RequiredBeforeEmail(f: Form, id: string, uploadOk: bool, storeOk: bool)
    requires !Present(f.website) && f.email.Some? && !IsValidEmail(Trim(f.email.value))
    requires f.name.None? || AllWhitespace(f.name.value)
    ensures HandleContact(Some(f), id, uploadOk, storeOk).kind == MissingFields
  {
  }

  /** Exactly 5 MiB is accepted; one byte more is refused, and the size is reported before the type. */
  lemma SizeBoundary(f: Form, id: string, uploadOk: bool)
    requires !Present(f.website) && !MissingRequired(f) && IsValidEmail(Trimmed(f.email).value)
    requires f.attachment.Some?
    ensures var a := f.attachment.value.(size := MaxAttachmentBytes, mimeType := "image/png");
            HandleContact(Some(f.(attachment := Some(a))), id, uploadOk, true).status == 200
    ensures var a := f.attachment.value.(size := MaxAttachmentBytes + 1, mimeType := "text/plain");
            HandleContact(Some(f.(attachment := Some(a))), id, uploadOk, true) == Response(400, FileTooLarge, None)
  {
    assert StartsWith("image/png", "image/");
  }

  /** An absent or empty file skips the size and type checks and records no key. */
  lemma NoFileSkipsChecks(f: Form, id: string, uploadOk: bool, storeOk: bool)
    requires !HasFile(f)
    ensures HandleContact(Some(f), id, uploadOk, storeOk).kind !in {FileTooLarge, NotAnImage}
    ensures HandleContact(Some(f), id, uploadOk, storeOk).saved.Some? ==>
              HandleContact(Some(f), id, uploadOk, storeOk).saved.value.attachmentKey.None?
  {
  }

  /** A failed upload still stores the submission, without a key; a failed store is a 500. */
  lemma StorageOutcomes(f: Form, id: string)
    requires Valid(f) && HasFile(f)
    ensures var r := HandleContact(Some(f), id, false, true);
            r.status == 200 && r.saved.Some? && r.saved.value.attachmentKey.None?
    ensures var r := HandleContact(Some(f), id, true, true);
            r.status == 200 && r.saved.Some?
            && r.saved.value.attachmentKey == Some("attachments/" + id + "." + Extension(f.attachment.value.fileName))
    ensures HandleContact(Some(f), id, true, false).status == 500
  {
  }
}

=== FILE: excerpt.dfy ===
/**
 * `createExcerpt` of src/lib/rss.ts: the preferred narrative field, stripped
 * of markup, and if longer than 160 characters cut to 157, backed off to a
 * word boundary and suffixed with `...`.
 */
module Excerpt {
  import opened Text
  import opened Html
  import opened FeedTypes

  const MaxLength: nat := 160
  const CutLength: nat := 157
  const Ellipsis: string := "..."

  /** The field the excerpt is built from: `contentSnippet || content:encodedSnippet || content || summary || ''`. */
  function ExcerptSource(item: RawItem): (r: string)
    ensures Present(item.contentSnippet) ==> r == item.contentSnippet.value
    ensures !Present(item.contentSnippet) && Present(item.contentEncodedSnippet) ==> r == item.contentEncodedSnippet.value
    ensures !Present(item.contentSnippet) && !Present(item.contentEncodedSnippet) && Present(item.content)
            ==> r == item.content.value
    ensures (!Present(item.contentSnippet) && !Present(item.contentEncodedSnippet) && !Present(item.content)
             && Present(item.summary)) ==> r == item.summary.value
    ensures (!Present(item.contentSnippet) && !Present(item.contentEncodedSnippet) && !Present(item.content)
             && !Present(item.summary)) ==> r == ""
  {
    var fields := [item.contentSnippet, item.contentEncodedSnippet, item.content, item.summary];
    assert fields[0] == item.contentSnippet && fields[1] == item.contentEncodedSnippet;
    assert fields[2] == item.content && fields[3] == item.summary;
    FirstPresent(fields)
  }

  /** `s[i..]` matches `\s+\S*$`: a run of whitespace starting at `i`, then only non-whitespace up to the end. */
  predicate TrailingWordAt(s: string, i: int) {
    && 0 <= i < |s| && IsWhitespace(s[i])
    && forall k :: i < k < |s| && !IsWhitespace(s[k]) ==> NoWhitespace(s[k..])
  }

  /** Drops the trailing run of non-whitespace characters. */
  function DropTrailingWord(s: string): (r: string)
    ensures |r| <= |s| && r == s[..|r|]
    ensures NoWhitespace(s[|r|..])
    ensures |r| > 0 ==> IsWhitespace(r[|r| - 1])
  {
    if |s| > 0 && !IsWhitespace(s[|s| - 1]) then
      var init := s[..|s| - 1];
      var r := DropTrailingWord(init);
      assert s[|r|..] == init[|r|..] + [s[|s| - 1]];
      forall k | 0 <= k < |s[|r|..]|
        ensures !IsWhitespace(s[|r|..][k])
      {
        if k < |init[|r|..]| {
          assert s[|r|..][k] == init[|r|..][k];
        }
      }
      r
    else s
  }

  /**
   * `replace(/\s+\S*$/, '')`: the leftmost match of the pattern, if any, is
   * removed; it necessarily runs to the end of the text.
   */
  function DropPartialWord(s: string): (r: string)
    ensures |r| <= |s| && r == s[..|r|]
    ensures NoWhitespace(s) ==> r == s
    ensures !NoWhitespace(s) ==> TrailingWordAt(s, |r|) && forall i :: 0 <= i < |r| ==> !TrailingWordAt(s, i)
    ensures |r| > 0 ==> !IsWhitespace(r[|r| - 1])
    ensures |s| > 0 && !IsWhitespace(s[0]) ==> |r| > 0
  {
    var t := DropTrailingWord(s);
    if |t| == 0 then
      assert s[|t|..] == s;
      s
    else
      var r := TrimEnd(t);
      var n := |r|;
      assert IsWhitespace(t[n]) by {
        assert s[n..|t|] == t[n..];
        assert t[n..][0] == t[n];
      }
      assert TrailingWordAt(s, n) by {
        forall k | n < k < |s| && !IsWhitespace(s[k])
          ensures NoWhitespace(s[k..])
        {
          assert k >= |t|;
          assert s[k..] == s[|t|..][k - |t|..];
        }
      }
      assert IsWhitespace(s[|t| - 1]) by {
        assert s[|t| - 1] == t[|t| - 1];
      }
      assert n > 0 ==> !IsWhitespace(s[n - 1]);
      forall i | 0 <= i < n
        ensures !TrailingWordAt(s, i)
      {
        assert s[n - 1..][|t| - n] == s[|t| - 1];
      }
      assert !NoWhitespace(s) ==> |t| > 0;
      assert !IsWhitespace(s[0]) ==> n > 0;
      r
  }

  /**
   * `p` is what `substring(0, 157).replace(/\s+\S*$/, '')` leaves of `clean`:
   * a prefix of the first 157 characters, all of them when they hold no
   * whitespace, and otherwise cut at the leftmost place where the pattern
   * matches.
   */
  predicate CutAtWordBoundary(clean: string, p: string)
    requires |clean| >= CutLength
  {
    && |p| <= CutLength && p == clean[..|p|]
    && (|p| == CutLength <==> NoWhitespace(clean[..CutLength]))
    && (|p| < CutLength ==> TrailingWordAt(clean[..CutLength], |p|))
    && forall i :: 0 <= i < |p| ==> !TrailingWordAt(clean[..CutLength], i)
  }

  /** The 160-character bound on the stripped text. */
  function Shorten(clean: string): (r: string)
    ensures |clean| <= MaxLength ==> r == clean
    ensures |clean| > MaxLength ==> 3 <= |r| <= MaxLength && r[|r| - 3..] == Ellipsis
    ensures |clean| > MaxLength ==> CutAtWordBoundary(clean, r[..|r| - 3])
    ensures |clean| > MaxLength && Normalized(clean) ==> |r| > 3 && !IsWhitespace(r[|r| - 4])
  {
    if |clean| <= MaxLength then clean
    else
      var cut := clean[..CutLength];
      var p := DropPartialWord(cut);
      assert (p + Ellipsis)[..|p|] == p;
      assert p == clean[..|p|];
      p + Ellipsis
  }

  /** `createExcerpt`. */
  function CreateExcerpt(item: RawItem): (r: string)
    ensures |r| <= MaxLength
    ensures |StripHtml(ExcerptSource(item))| <= MaxLength ==> r == StripHtml(ExcerptSource(item))
    ensures |StripHtml(ExcerptSource(item))| > MaxLength ==>
              && |r| >= 3 && EndsWith(r, Ellipsis)
              && CutAtWordBoundary(StripHtml(ExcerptSource(item)), r[..|r| - 3])
    ensures |StripHtml(ExcerptSource(item))| > MaxLength ==> |r| > 3 && !IsWhitespace(r[|r| - 4])
  {
    var clean := StripHtml(ExcerptSource(item));
    Shorten(clean)
  }
}

=== FILE: feed_types.dfy ===
/**
 * The records of the feed pipeline. A `RawItem` is one item as the feed
 * parser library hands it over: every field optional, as in the parser's
 * output object. A `FeedItem` is the normalised record the site renders.
 */
module FeedTypes {
  import opened Wrappers
  import opened Text

  /** One entry of the feed registry; `sourceLabel` is the `label` field. */
  datatype FeedConfig = FeedConfig(name: string, url: string, sourceLabel: string)

  /** The parser's view of one `<item>`; attribute-bearing elements are reduced to the attribute that is read. */
  datatype RawItem = RawItem(
    title: Option<string>,
    link: Option<string>,
    pubDate: Option<string>,
    isoDate: Option<string>,
    content: Option<string>,
    contentSnippet: Option<string>,
    contentEncoded: Option<string>,          // `content:encoded`
    contentEncodedSnippet: Option<string>,   // `content:encodedSnippet`
    summary: Option<string>,
    mediaContentUrl: Option<string>,         // `media:content` `url` attribute
    mediaThumbnailUrl: Option<string>,       // `media:thumbnail` `url` attribute
    enclosureUrl: Option<string>,
    enclosureType: Option<string>,
    itunesImageHref: Option<string>)         // `itunes:image` `href` attribute

  /** The normalised article reference. */
  datatype FeedItem = FeedItem(
    title: string,
    link: string,
    pubDate: string,
    isoDate: string,
    excerpt: string,
    image: Option<string>,
    source: string,
    sourceUrl: string)

  /** `a || b || ... || ""` over optional string fields: the first present one, in order. */
  function FirstPresent(fields: seq<Option<string>>): (r: string)
    ensures (forall i :: 0 <= i < |fields| ==> !Present(fields[i])) ==> r == ""
    ensures forall i :: 0 <= i < |fields| && Present(fields[i]) && (forall j :: 0 <= j < i ==> !Present(fields[j]))
                        ==> r == fields[i].value
  {
    if |fields| == 0 then ""
    else if Present(fields[0]) then fields[0].value
    else
      var rest := fields[1..];
      var r := FirstPresent(rest);
      forall i | 1 <= i < |fields| && Present(fields[i]) && (forall j :: 0 <= j < i ==> !Present(fields[j]))
        ensures r == fields[i].value
      {
        assert rest[i - 1] == fields[i];
        forall j | 0 <= j < i - 1
          ensures !Present(rest[j])
        {
          assert rest[j] == fields[j + 1];
        }
      }
      assert forall i :: 0 <= i < |rest| ==> rest[i] == fields[i + 1];
      r
  }
}

=== FILE: html.dfy ===
/**
 * `stripHtml` of src/lib/rss.ts: tag removal, then the six entity
 * replacements one after the other, then whitespace collapse and trim.
 */
module Html {
  import opened Wrappers
  import opened Text

  /** No `<` is followed, anywhere later, by a `>`: nothing left for `/<[^>]*>/` to match. */
  predicate NoTag(s: string) {
    forall j :: 0 <= j < |s| && s[j] == '>' ==> '<' !in s[..j]
  }

  /**
   * `replace(/<[^>]*>/g, '')`. Scanning left to right, a `<` together with
   * everything up to the first `>` after it is removed; a `<` with no `>`
   * after it cannot start a match, and neither can anything after it.
   */
  function RemoveTags(s: string): (r: string)
    ensures NoTag(r)
    ensures NoTag(s) ==> r == s
    ensures |r| <= |s|
    decreases |s|
  {
    if |s| == 0 then []
    else if s[0] == '<' then
      match FindChar(s, '>', 1)
      case Some(j) => RemoveTags(s[j + 1..])
      case None => s
    else [s[0]] + RemoveTags(s[1..])
  }

  /** A leading tag vanishes. */
  lemma LeadingTagDropped(inner: string, b: string)
    requires forall i :: 0 <= i < |inner| ==> inner[i] != '>'
    ensures RemoveTags("<" + inner + ">" + b) == RemoveTags(b)
  {
    var s := "<" + inner + ">" + b;
    assert s[|inner| + 1] == '>';
    assert forall k :: 1 <= k < |inner| + 1 ==> s[k] == inner[k - 1];
    assert FindChar(s, '>', 1) == Some(|inner| + 1);
    assert s[|inner| + 2..] == b;
  }

  /** A character other than `<` is kept. */
  lemma KeepsPlainChar(c: char, rest: string)
    requires c != '<'
    ensures RemoveTags([c] + rest) == [c] + RemoveTags(rest)
  {
    assert ([c] + rest)[1..] == rest;
  }

  /** A tag (a `<`, no `>`, then a `>`) vanishes while the tag-free text before it is kept. */
  lemma {:induction false} RemoveTagsDropsTag(a: string, inner: string, b: string)
    requires forall i :: 0 <= i < |a| ==> a[i] != '<'
    requires forall i :: 0 <= i < |inner| ==> inner[i] != '>'
    ensures RemoveTags(a + "<" + inner + ">" + b) == a + RemoveTags(b)
    decreases |a|
  {
    var tail := "<" + inner + ">" + b;
    assert a + "<" + inner + ">" + b == a + tail;
    if |a| == 0 {
      assert a + tail == tail;
      LeadingTagDropped(inner, b);
    } else {
      var a' := a[1..];
      assert a + tail == [a[0]] + (a' + tail);
      assert a' + tail == a' + "<" + inner + ">" + b;
      KeepsPlainChar(a[0], a' + tail);
      RemoveTagsDropsTag(a', inner, b);
      assert a == [a[0]] + a';
    }
  }

  /**
   * `replace(/pat/g, rep)` for a literal pattern: occurrences are found left
   * to right without overlap, and replaced text is not searched again.
   */
  function ReplaceAll(s: string, pat: string, rep: string): (r: string)
    requires |pat| > 0
    ensures (forall i :: 0 <= i < |s| ==> s[i] != pat[0]) ==> r == s
    ensures |rep| <= |pat| ==> |r| <= |s|
    decreases |s|
  {
    if |s| < |pat| then s
    else if s[..|pat|] == pat then rep + ReplaceAll(s[|pat|..], pat, rep)
    else [s[0]] + ReplaceAll(s[1..], pat, rep)
  }

  /** The entity replacements, in the order they are applied. `&hellip;` is not among them. */
  function DecodeEntities(s: string): (r: string)
    ensures (forall i :: 0 <= i < |s| ==> s[i] != '&') ==> r == s
    ensures |r| <= |s|
  {
    var s1 := ReplaceAll(s, "&nbsp;", " ");
    var s2 := ReplaceAll(s1, "&amp;", "&");
    var s3 := ReplaceAll(s2, "&lt;", "<");
    var s4 := ReplaceAll(s3, "&gt;", ">");
    var s5 := ReplaceAll(s4, "&quot;", "\"");
    ReplaceAll(s5, "&#39;", "'")
  }

  /** Because `&amp;` is decoded before `&lt;`, an escaped entity is decoded twice. */
  lemma DoubleDecoding()
    ensures DecodeEntities("&amp;lt;") == "<"
  {
    assert ReplaceAll("&amp;lt;", "&nbsp;", " ") == "&amp;lt;";
    assert "&amp;lt;"[..5] == "&amp;";
    assert "&amp;lt;"[5..] == "lt;";
    assert ReplaceAll("lt;", "&amp;", "&") == "lt;";
    assert ReplaceAll("&amp;lt;", "&amp;", "&") == "&lt;";
    assert "&lt;"[..4] == "&lt;";
    assert ReplaceAll("&lt;", "&lt;", "<") == "<";
  }

  /** A text that does not start with `pat` and has no other place where `pat` could start is left alone. */
  lemma ReplaceAllNoMatch(s: string, pat: string, rep: string)
    requires |pat| > 0 && |s| >= |pat| && s[..|pat|] != pat
    requires forall i :: 1 <= i < |s| ==> s[i] != pat[0]
    ensures ReplaceAll(s, pat, rep) == s
  {
    assert ReplaceAll(s, pat, rep) == [s[0]] + ReplaceAll(s[1..], pat, rep);
  }

  /** `pat` occurs in `s` starting at index `i`. */
  predicate OccursAt(s: string, pat: string, i: nat) {
    i + |pat| <= |s| && s[i..i + |pat|] == pat
  }

  /**
   * A global replace rewrites the first occurrence of `pat` and carries on
   * after it: the text before it is kept, and the search resumes behind the
   * replaced occurrence, never inside it.
   */
  lemma {:induction false} ReplaceAllAtFirstOccurrence(a: string, pat: string, rep: string, b: string)
    requires |pat| > 0
    requires forall i: nat :: i < |a| ==> !OccursAt(a + pat, pat, i)
    ensures ReplaceAll(a + (pat + b), pat, rep) == a + (rep + ReplaceAll(b, pat, rep))
    decreases |a|
  {
    var s := a + (pat + b);
    if |a| == 0 {
      assert s == pat + b && s[..|pat|] == pat && s[|pat|..] == b;
    } else {
      assert !OccursAt(a + pat, pat, 0);
      assert s[..|pat|] == (a + pat)[0..|pat|];
      var a' := a[1..];
      assert a' + pat == (a + pat)[1..];
      forall i: nat | i < |a'|
        ensures !OccursAt(a' + pat, pat, i)
      {
        OccursAfterFirst(a + pat, pat, i);
      }
      ReplaceAllAtFirstOccurrence(a', pat, rep, b);
      assert s[1..] == a' + (pat + b);
      var tail := rep + ReplaceAll(b, pat, rep);
      assert [a[0]] + (a' + tail) == a + tail;
    }
  }

  /** Dropping the first character shifts every occurrence one place to the left. */
  lemma OccursAfterFirst(x: string, pat: string, i: nat)
    requires |x| > 0
    ensures OccursAt(x[1..], pat, i) <==> OccursAt(x, pat, i + 1)
  {
    if i + 1 + |pat| <= |x| {
      assert x[1..][i..i + |pat|] == x[i + 1..i + 1 + |pat|];
    }
  }

  /** Text in which `pat` occurs nowhere comes back unchanged, whatever characters of `pat` it holds. */
  lemma {:induction false} ReplaceAllNoOccurrence(s: string, pat: string, rep: string)
    requires |pat| > 0
    requires forall i: nat :: i < |s| ==> !OccursAt(s, pat, i)
    ensures ReplaceAll(s, pat, rep) == s
    decreases |s|
  {
    if |s| >= |pat| {
      assert !OccursAt(s, pat, 0);
      assert s[..|pat|] == s[0..|pat|];
      var t := s[1..];
      forall i: nat | i < |t|
        ensures !OccursAt(t, pat, i)
      {
        OccursAfterFirst(s, pat, i);
      }
      ReplaceAllNoOccurrence(t, pat, rep);
      assert [s[0]] + t == s;
    }
  }

  /** None of the six decoded entities occurs in `s`. */
  predicate NoEntity(s: string) {
    forall i: nat :: i < |s| ==> && !OccursAt(s, "&nbsp;", i) && !OccursAt(s, "&amp;", i) && !OccursAt(s, "&lt;", i)
                                 && !OccursAt(s, "&gt;", i) && !OccursAt(s, "&quot;", i) && !OccursAt(s, "&#39;", i)
  }

  /** Text holding none of the six entities is left exactly as it is, `&` characters included. */
  lemma DecodeEntitiesNoEntity(s: string)
    requires NoEntity(s)
    ensures DecodeEntities(s) == s
  {
    ReplaceAllNoOccurrence(s, "&nbsp;", " ");
    ReplaceAllNoOccurrence(s, "&amp;", "&");
    ReplaceAllNoOccurrence(s, "&lt;", "<");
    ReplaceAllNoOccurrence(s, "&gt;", ">");
    ReplaceAllNoOccurrence(s, "&quot;", "\"");
    ReplaceAllNoOccurrence(s, "&#39;", "'");
  }

  /** A bare `&` is not an entity: `AT&T` survives decoding. */
  lemma BareAmpersandKept()
    ensures DecodeEntities("AT&T") == "AT&T"
  {
    var s := "AT&T";
    assert s[0..4] == s;
    DecodeEntitiesNoEntity(s);
  }

  lemma ReplaceAllExample()
    ensures ReplaceAll("x&lt;y", "&lt;", "<") == "x<y"
  {
    var pat := "&lt;";
    assert !OccursAt("x" + pat, pat, 0) by {
      assert ("x" + pat)[0..4] == "x&lt";
    }
    ReplaceAllAtFirstOccurrence("x", pat, "<", "y");
    assert "x" + (pat + "y") == "x&lt;y";
  }

  /** `&hellip;` survives decoding unchanged. */
  lemma EllipsisEntityKept()
    ensures DecodeEntities("&hellip;") == "&hellip;"
  {
    var h := "&hellip;";
    assert forall i :: 1 <= i < |h| ==> h[i] != '&';
    assert forall n :: 2 <= n <= |h| ==> h[..n][1] == 'h';
    ReplaceAllNoMatch(h, "&nbsp;", " ");
    ReplaceAllNoMatch(h, "&amp;", "&");
    ReplaceAllNoMatch(h, "&lt;", "<");
    ReplaceAllNoMatch(h, "&gt;", ">");
    ReplaceAllNoMatch(h, "&quot;", "\"");
    ReplaceAllNoMatch(h, "&#39;", "'");
  }

  /** Positions `i` and `i + 1` of `s` both hold whitespace. */
  predicate DoubleWhitespaceAt(s: string, i: int)
    requires 0 <= i < |s| - 1
  {
    IsWhitespace(s[i]) && IsWhitespace(s[i + 1])
  }

  predicate NoDoubleWhitespace(s: string) {
    forall i :: 0 <= i < |s| - 1 ==> !DoubleWhitespaceAt(s, i)
  }

  /**
   * `replace(/\s+/g, ' ')`: every maximal run of whitespace becomes one
   * space, and the runs of other characters between them are kept.
   */
  function CollapseWhitespace(s: string): (r: string)
    ensures |s| > 0 ==> |r| > 0
    ensures |s| > 0 && !IsWhitespace(s[0]) ==> r[0] == s[0]
    ensures SpacesOnly(r)
    ensures NoWhitespace(s) ==> r == s
    decreases |s|
  {
    if |s| == 0 then []
    else if IsWhitespace(s[0]) then
      var rest := CollapseWhitespace(TrimStart(s[1..]));
      SpacesOnlyJoined(" ", rest);
      " " + rest
    else
      var w := TakeWord(s);
      var rest := CollapseWhitespace(s[|w|..]);
      SpacesOnlyJoined(w, rest);
      WordIsWhole(s, w);
      w + rest
  }

  /** Every whitespace character of `s` is a plain space. */
  predicate SpacesOnly(s: string) {
    forall i :: 0 <= i < |s| && IsWhitespace(s[i]) ==> s[i] == ' '
  }

  lemma SpacesOnlyJoined(a: string, b: string)
    requires SpacesOnly(a) && SpacesOnly(b)
    ensures SpacesOnly(a + b)
  {
    assert forall i :: |a| <= i < |a + b| ==> (a + b)[i] == b[i - |a|];
  }

  /** A leading word that stops at the end or at whitespace is the whole text when the text has no whitespace. */
  lemma WordIsWhole(s: string, w: string)
    requires |w| <= |s| && w == s[..|w|] && (|w| == |s| || IsWhitespace(s[|w|]))
    ensures NoWhitespace(s) ==> w == s && s[|w|..] == []
  {
  }

  /** The leading run of non-whitespace characters. */
  function TakeWord(s: string): (w: string)
    ensures |w| <= |s| && w == s[..|w|]
    ensures |w| == |s| || IsWhitespace(s[|w|])
    ensures |s| > 0 && !IsWhitespace(s[0]) ==> |w| > 0
    ensures NoWhitespace(w)
  {
    if |s| == 0 || IsWhitespace(s[0]) then [] else [s[0]] + TakeWord(s[1..])
  }

  /** The maximal runs of non-whitespace characters, in order. */
  function Words(s: string): (ws: seq<string>)
    ensures |s| > 0 && !IsWhitespace(s[0]) ==> |ws| > 0 && ws[0] == TakeWord(s)
    decreases |s|
  {
    if |s| == 0 then []
    else if IsWhitespace(s[0]) then Words(s[1..])
    else
      var w := TakeWord(s);
      [w] + Words(s[|w|..])
  }

  lemma {:induction false} TakeWordHasNoWhitespace(s: string)
    ensures NoWhitespace(TakeWord(s))
    decreases |s|
  {
    if |s| > 0 && !IsWhitespace(s[0]) {
      TakeWordHasNoWhitespace(s[1..]);
      assert TakeWord(s) == [s[0]] + TakeWord(s[1..]);
    }
  }

  /** Every word is non-empty and free of whitespace. */
  lemma {:induction false} WordsAreWords(s: string)
    ensures forall k :: 0 <= k < |Words(s)| ==> |Words(s)[k]| > 0 && NoWhitespace(Words(s)[k])
    decreases |s|
  {
    if |s| > 0 {
      if IsWhitespace(s[0]) {
        WordsAreWords(s[1..]);
      } else {
        var w := TakeWord(s);
        WordsAreWords(s[|w|..]);
        TakeWordHasNoWhitespace(s);
        assert Words(s) == [w] + Words(s[|w|..]);
      }
    }
  }

  /** The words separated by single spaces. */
  function JoinWords(ws: seq<string>): string {
    if |ws| == 0 then ""
    else if |ws| == 1 then ws[0]
    else ws[0] + (" " + JoinWords(ws[1..]))
  }

  /** Trimmed, and no two whitespace characters next to each other. */
  predicate Normalized(s: string) {
    && (|s| > 0 ==> !IsWhitespace(s[0]) && !IsWhitespace(s[|s| - 1]))
    && NoDoubleWhitespace(s)
  }

  lemma {:induction false} JoinWordsNormalized(ws: seq<string>)
    requires forall k :: 0 <= k < |ws| ==> |ws[k]| > 0 && NoWhitespace(ws[k])
    ensures Normalized(JoinWords(ws))
    ensures |ws| > 0 ==> |JoinWords(ws)| > 0
    ensures SpacesOnly(JoinWords(ws))
  {
    if |ws| == 1 {
      assert JoinWords(ws) == ws[0];
    } else if |ws| > 1 {
      var w := ws[0];
      var rest := JoinWords(ws[1..]);
      JoinWordsNormalized(ws[1..]);
      var j := JoinWords(ws);
      assert j == w + (" " + rest);
      assert forall i :: 0 <= i < |w| ==> j[i] == w[i];
      assert j[|w|] == ' ';
      assert forall i :: |w| < i < |j| ==> j[i] == rest[i - |w| - 1];
      assert !IsWhitespace(j[0]);
      assert !IsWhitespace(j[|j| - 1]);
      forall i | 0 <= i < |j| - 1
        ensures !DoubleWhitespaceAt(j, i)
      {
        if i < |w| - 1 {
          assert !IsWhitespace(w[i]);
        } else if i == |w| - 1 {
          assert !IsWhitespace(w[i]);
        } else if i == |w| {
          assert !IsWhitespace(rest[0]);
        } else {
          assert j[i] == rest[i - |w| - 1] && j[i + 1] == rest[i - |w|];
          assert !DoubleWhitespaceAt(rest, i - |w| - 1);
        }
      }
    }
  }

  lemma TrimStartCollapse(s: string)
    ensures TrimStart(CollapseWhitespace(s)) == CollapseWhitespace(TrimStart(s))
  {
    if |s| > 0 && IsWhitespace(s[0]) {
      var c := CollapseWhitespace(TrimStart(s[1..]));
      assert CollapseWhitespace(s) == " " + c;
      assert (" " + c)[1..] == c;
      assert TrimStart(" " + c) == TrimStart(c);
    }
  }

  lemma {:induction false} WordsSkipWhitespace(s: string)
    ensures Words(s) == Words(TrimStart(s))
    decreases |s|
  {
    if |s| > 0 && IsWhitespace(s[0]) {
      WordsSkipWhitespace(s[1..]);
    }
  }

  lemma {:induction false} TrimEndAppendWhitespace(a: string, b: string)
    requires AllWhitespace(b)
    ensures TrimEnd(a + b) == TrimEnd(a)
    decreases |b|
  {
    if |b| == 0 {
      assert a + b == a;
    } else {
      var b' := b[..|b| - 1];
      assert (a + b)[..|a + b| - 1] == a + b';
      TrimEndAppendWhitespace(a, b');
    }
  }

  lemma {:induction false} TrimEndAppend(a: string, b: string)
    requires !AllWhitespace(b)
    ensures TrimEnd(a + b) == a + TrimEnd(b)
    decreases |b|
  {
    var b' := b[..|b| - 1];
    if IsWhitespace(b[|b| - 1]) {
      assert (a + b)[..|a + b| - 1] == a + b';
      assert !AllWhitespace(b');
      TrimEndAppend(a, b');
    }
  }

  lemma JoinWordsCons(w: string, ws: seq<string>)
    requires |ws| > 0
    ensures JoinWords([w] + ws) == w + (" " + JoinWords(ws))
  {
    assert ([w] + ws)[1..] == ws;
  }

  /** The text after the first word of `t` and the whitespace run that follows it. */
  function AfterFirstWord(t: string): (u: string)
    requires |TakeWord(t)| < |t|
    ensures |u| < |t| - |TakeWord(t)|
    ensures |u| == 0 || !IsWhitespace(u[0])
  {
    TrimStart(t[|TakeWord(t)| + 1..])
  }

  /** A text that starts with a word followed by whitespace collapses to the word, one space and the rest from its next word. */
  lemma {:induction false} CollapseAfterWord(t: string)
    requires |t| > 0 && !IsWhitespace(t[0])
    requires |TakeWord(t)| < |t|
    ensures CollapseWhitespace(t) == TakeWord(t) + (" " + CollapseWhitespace(AfterFirstWord(t)))
  {
    var w := TakeWord(t);
    var c := CollapseWhitespace(AfterFirstWord(t));
    CollapseLeadingWhitespace(t[|w|..]);
    assert t[|w|..][1..] == t[|w| + 1..];
    calc {
      CollapseWhitespace(t);
      w + CollapseWhitespace(t[|w|..]);
      w + (" " + c);
    }
  }

  lemma CollapseLeadingWhitespace(s: string)
    requires |s| > 0 && IsWhitespace(s[0])
    ensures CollapseWhitespace(s) == " " + CollapseWhitespace(TrimStart(s[1..]))
  {
  }

  /** Its words are the first word followed by the words of the rest. */
  lemma {:induction false} WordsAfterWord(t: string)
    requires |t| > 0 && !IsWhitespace(t[0])
    requires |TakeWord(t)| < |t|
    ensures Words(t) == [TakeWord(t)] + Words(AfterFirstWord(t))
  {
    var w := TakeWord(t);
    var rest := t[|w|..];
    assert rest[1..] == t[|w| + 1..];
    assert Words(t) == [w] + Words(rest);
    assert Words(rest) == Words(rest[1..]);
    WordsSkipWhitespace(rest[1..]);
  }

  lemma TrimEndKeepsWord(t: string)
    requires |t| > 0 && !IsWhitespace(t[0])
    ensures TrimEnd(TakeWord(t)) == TakeWord(t)
  {
    var w := TakeWord(t);
    TakeWordHasNoWhitespace(t);
    assert !IsWhitespace(w[|w| - 1]);
  }

  /** A text that is a single word. */
  lemma OneWordIsJoin(t: string)
    requires |t| > 0 && !IsWhitespace(t[0])
    requires |TakeWord(t)| == |t|
    ensures TrimEnd(CollapseWhitespace(t)) == JoinWords(Words(t))
  {
    var w := TakeWord(t);
    TrimEndKeepsWord(t);
    assert CollapseWhitespace(t) == w + CollapseWhitespace(t[|w|..]);
    assert t[|w|..] == [];
    assert Words(t) == [w] + Words([]);
  }

  lemma SpaceIsWhitespace()
    ensures AllWhitespace(" ")
  {
    assert " "[0] == ' ';
  }

  /** A text that is a single word followed by whitespace. */
  lemma LastWordIsJoin(t: string)
    requires |t| > 0 && !IsWhitespace(t[0])
    requires |TakeWord(t)| < |t| && |AfterFirstWord(t)| == 0
    ensures TrimEnd(CollapseWhitespace(t)) == JoinWords(Words(t))
  {
    var w := TakeWord(t);
    CollapseAfterWord(t);
    WordsAfterWord(t);
    assert Words(t) == [w];
    var u := AfterFirstWord(t);
    assert u == [] && CollapseWhitespace(u) == [];
    assert CollapseWhitespace(t) == w + " " by {
      assert " " + [] == " ";
    }
    calc {
      TrimEnd(CollapseWhitespace(t));
      TrimEnd(w + " ");
      { SpaceIsWhitespace(); TrimEndAppendWhitespace(w, " "); }
      TrimEnd(w);
      { TrimEndKeepsWord(t); }
      w;
    }
  }

  lemma {:induction false} TrimEndCollapseIsJoin(t: string)
    requires |t| == 0 || !IsWhitespace(t[0])
    ensures TrimEnd(CollapseWhitespace(t)) == JoinWords(Words(t))
    decreases |t|
  {
    if |t| > 0 {
      var w := TakeWord(t);
      if |w| == |t| {
        OneWordIsJoin(t);
      } else if |AfterFirstWord(t)| == 0 {
        LastWordIsJoin(t);
      } else {
        var u := AfterFirstWord(t);
        var c := CollapseWhitespace(u);
        var ws := Words(u);
        CollapseAfterWord(t);
        WordsAfterWord(t);
        assert !AllWhitespace(c) by { assert !IsWhitespace(c[0]); }
        calc {
          TrimEnd(CollapseWhitespace(t));
          TrimEnd(w + (" " + c));
          { assert !AllWhitespace(" " + c) by { assert (" " + c)[1..] == c; }
            TrimEndAppend(w, " " + c); }
          w + TrimEnd(" " + c);
          { TrimEndAppend(" ", c); }
          w + (" " + TrimEnd(c));
          { TrimEndCollapseIsJoin(u); }
          w + (" " + JoinWords(ws));
          { JoinWordsCons(w, ws); }
          JoinWords([w] + ws);
        }
      }
    }
  }

  /** Collapsing whitespace and trimming yields the words of the text joined by single spaces. */
  lemma CollapseTrimIsJoin(s: string)
    ensures Trim(CollapseWhitespace(s)) == JoinWords(Words(s))
  {
    TrimStartCollapse(s);
    TrimEndCollapseIsJoin(TrimStart(s));
    WordsSkipWhitespace(s);
  }

  /** `stripHtml`. */
  function StripHtml(html: string): (r: string)
    ensures r == JoinWords(Words(DecodeEntities(RemoveTags(html))))
    ensures Normalized(r)
    ensures SpacesOnly(r)
  {
    var decoded := DecodeEntities(RemoveTags(html));
    CollapseTrimIsJoin(decoded);
    WordsAreWords(decoded);
    JoinWordsNormalized(Words(decoded));
    Trim(CollapseWhitespace(decoded))
  }
}

=== FILE: images.dfy ===
/**
 * `extractImage` of src/lib/rss.ts: a fixed priority order over the places a
 * feed item may carry an image, including a hand-written scanner for the
 * pattern `/<img[^>]+src=["']([^"']+)["']/i` that finds the first inline image.
 */
module Images {
  import opened Wrappers
  import opened Text
  import opened FeedTypes

  /** `s[i..]` starts with the lower-case literal `lit`, letters compared without case as under the `i` flag. */
  predicate MatchesFoldedAt(s: string, i: nat, lit: string) {
    i + |lit| <= |s| && forall k :: 0 <= k < |lit| ==> ToLowerChar(s[i + k]) == lit[k]
  }

  predicate IsQuote(c: char) {
    c == '"' || c == '\''
  }

  /** Index of the first quote at or after `from`. */
  function FindQuote(s: string, from: nat): (r: Option<nat>)
    ensures r.Some? ==> from <= r.value < |s| && IsQuote(s[r.value])
                        && forall k :: from <= k < r.value ==> !IsQuote(s[k])
    ensures r.None? ==> forall k :: from <= k < |s| ==> !IsQuote(s[k])
    decreases |s| - from
  {
    if from >= |s| then None
    else if IsQuote(s[from]) then Some(from)
    else FindQuote(s, from + 1)
  }

  /**
   * `src=["']([^"']+)["']` matches at `q`. The value group is greedy and must
   * be followed by a quote, so it is exactly the run up to the next quote,
   * which must be non-empty.
   */
  predicate SrcAttrAt(s: string, q: nat) {
    && MatchesFoldedAt(s, q, "src=")
    && q + 4 < |s| && IsQuote(s[q + 4])
    && var e := FindQuote(s, q + 5); e.Some? && e.value > q + 5
  }

  /** The captured group of a match of the attribute at `q`. */
  function SrcValue(s: string, q: nat): (v: string)
    requires SrcAttrAt(s, q)
    ensures |v| > 0 && forall k :: 0 <= k < |v| ==> !IsQuote(v[k])
  {
    s[q + 5..FindQuote(s, q + 5).value]
  }

  /** The whole pattern matches from `p`, its `[^>]+` part ending just before `q`. */
  predicate ImgMatch(s: string, p: nat, q: nat) {
    && MatchesFoldedAt(s, p, "<img")
    && p + 5 <= q
    && SrcAttrAt(s, q)
    && forall k :: p + 4 <= k < q ==> s[k] != '>'
  }

  /** The largest `q` in `[lo, hi]` at which the attribute matches. */
  function LastSrcAttr(s: string, lo: nat, hi: int): (r: Option<nat>)
    ensures r.Some? ==> lo <= r.value <= hi && SrcAttrAt(s, r.value)
                        && forall q: nat :: r.value < q <= hi ==> !SrcAttrAt(s, q)
    ensures r.None? ==> forall q: nat :: lo <= q <= hi ==> !SrcAttrAt(s, q)
    decreases hi - lo + 1
  {
    if hi < lo then None
    else if SrcAttrAt(s, hi) then Some(hi)
    else LastSrcAttr(s, lo, hi - 1)
  }

  /**
   * Whether a match starts at `p`, and where its greedy `[^>]+` stops: at
   * the last attribute match before the first `>` of the tag.
   */
  function MatchAt(s: string, p: nat): (r: Option<nat>)
    ensures r.Some? ==> ImgMatch(s, p, r.value) && forall q: nat :: q > r.value ==> !ImgMatch(s, p, q)
    ensures r.None? ==> forall q: nat :: !ImgMatch(s, p, q)
  {
    if !MatchesFoldedAt(s, p, "<img") then None
    else
      var close := FindChar(s, '>', p + 4);
      var hi := if close.Some? then close.value else |s|;
      var r := LastSrcAttr(s, p + 5, hi);
      assert forall q: nat :: q > hi && p + 5 <= q && SrcAttrAt(s, q) ==> close.Some? && s[close.value] == '>';
      r
  }

  /** The leftmost match starting at or after `p`, as the pair (start, end of `[^>]+`). */
  function FindImg(s: string, p: nat): (r: Option<(nat, nat)>)
    ensures r.Some? ==> p <= r.value.0 && ImgMatch(s, r.value.0, r.value.1)
                        && (forall q: nat :: q > r.value.1 ==> !ImgMatch(s, r.value.0, q))
                        && (forall p': nat, q: nat :: p <= p' < r.value.0 ==> !ImgMatch(s, p', q))
    ensures r.None? ==> forall p': nat, q: nat :: p <= p' ==> !ImgMatch(s, p', q)
    decreases |s| - p
  {
    if p >= |s| then None
    else
      match MatchAt(s, p)
      case Some(q) => Some((p, q))
      case None => FindImg(s, p + 1)
  }

  /** `content.match(/<img[^>]+src=["']([^"']+)["']/i)?.[1]`. */
  function FirstInlineImage(content: string): (r: Option<string>)
    ensures r.None? <==> forall p: nat, q: nat :: !ImgMatch(content, p, q)
    ensures r.Some? ==> |r.value| > 0
    ensures r.Some? ==>
              exists p: nat, q: nat ::
                && ImgMatch(content, p, q)
                && (forall p': nat, q': nat :: p' < p ==> !ImgMatch(content, p', q'))
                && (forall q': nat :: q' > q ==> !ImgMatch(content, p, q'))
                && r.value == SrcValue(content, q)
  {
    match FindImg(content, 0)
    case Some((p, q)) => Some(SrcValue(content, q))
    case None => None
  }

  /** The text searched for an inline image: `item['content:encoded'] || item.content || ''`. */
  function InlineSource(item: RawItem): (s: string)
    ensures Present(item.contentEncoded) ==> s == item.contentEncoded.value
    ensures !Present(item.contentEncoded) && Present(item.content) ==> s == item.content.value
    ensures !Present(item.contentEncoded) && !Present(item.content) ==> s == ""
  {
    var fields := [item.contentEncoded, item.content];
    assert fields[0] == item.contentEncoded && fields[1] == item.content;
    FirstPresent(fields)
  }

  /** The enclosure is an image: its type starts with `image`. */
  predicate ImageEnclosure(item: RawItem): (e: bool)
    ensures e ==> item.enclosureUrl.Some? && |item.enclosureUrl.value| > 0
    ensures e ==> item.enclosureType.Some? && |item.enclosureType.value| >= 5 && item.enclosureType.value[..5] == "image"
    ensures item.enclosureUrl.None? || item.enclosureType.None? ==> !e
  {
    Present(item.enclosureUrl) && item.enclosureType.Some? && StartsWith(item.enclosureType.value, "image")
  }

  /** `extractImage`. */
  function ExtractImage(item: RawItem): (r: Option<string>)
    ensures r.Some? ==> |r.value| > 0
  {
    if Present(item.mediaContentUrl) then item.mediaContentUrl
    else if Present(item.mediaThumbnailUrl) then item.mediaThumbnailUrl
    else if ImageEnclosure(item) then item.enclosureUrl
    else
      var inline := FirstInlineImage(InlineSource(item));
      if inline.Some? then inline
      else if Present(item.itunesImageHref) then item.itunesImageHref
      else None
  }

  /** A field as an image candidate: itself when present, otherwise nothing. */
  function Candidate(o: Option<string>): Option<string> {
    if Present(o) then o else None
  }

  /** The five image sources in priority order, each `None` when that source offers nothing. */
  function Candidates(item: RawItem): seq<Option<string>> {
    [ Candidate(item.mediaContentUrl),
      Candidate(item.mediaThumbnailUrl),
      if ImageEnclosure(item) then item.enclosureUrl else None,
      FirstInlineImage(InlineSource(item)),
      Candidate(item.itunesImageHref) ]
  }

  /** The first candidate that is available. */
  function FirstAvailable(cs: seq<Option<string>>): Option<string> {
    if |cs| == 0 then None else if cs[0].Some? then cs[0] else FirstAvailable(cs[1..])
  }

  /** The image chosen is the first available of the five sources; there is none only if all five are empty. */
  lemma ExtractImageIsFirstCandidate(item: RawItem)
    ensures ExtractImage(item) == FirstAvailable(Candidates(item))
    ensures ExtractImage(item).None? <==> forall i :: 0 <= i < 5 ==> Candidates(item)[i].None?
  {
    var cs := Candidates(item);
    var c1, c2, c3, c4 := cs[1..], cs[2..], cs[3..], cs[4..];
    assert c1[1..] == c2 && c2[1..] == c3 && c3[1..] == c4 && c4[1..] == [];
    assert FirstAvailable(c4) == cs[4];
    assert FirstAvailable(c3) == if cs[3].Some? then cs[3] else cs[4];
    assert FirstAvailable(c2) == if cs[2].Some? then cs[2] else FirstAvailable(c3);
    assert FirstAvailable(c1) == if cs[1].Some? then cs[1] else FirstAvailable(c2);
  }

  /** An enclosure whose type does not start with `image` is never consulted: the search falls through as if it were absent. */
  lemma NonImageEnclosureIgnored(item: RawItem)
    requires !(item.enclosureType.Some? && StartsWith(item.enclosureType.value, "image"))
    ensures ExtractImage(item) == ExtractImage(item.(enclosureUrl := None))
  {
  }

  /** Without media content or a thumbnail, an image enclosure is chosen before any inline image or iTunes image. */
  lemma ImageEnclosureChosen(item: RawItem)
    requires !Present(item.mediaContentUrl) && !Present(item.mediaThumbnailUrl)
    requires Present(item.enclosureUrl) && item.enclosureType.Some? && StartsWith(item.enclosureType.value, "image")
    ensures ExtractImage(item) == item.enclosureUrl
  {
  }

  /** With media content, an image enclosure and an inline image all present, the media content wins. */
  lemma MediaContentWins(item: RawItem)
    requires Present(item.mediaContentUrl)
    ensures ExtractImage(item) == item.mediaContentUrl
  {
  }
}

=== FILE: items.dfy ===
/**
 * The per-item mapping of `fetchFeed` in src/lib/rss.ts: one parsed item
 * becomes one `FeedItem`, every field falling back to a default. Any
 * exception inside the mapping is caught by `fetchFeed` and empties the feed.
 */
module Items {
  import opened Wrappers
  import opened Text
  import opened FeedTypes
  import opened Collections
  import Excerpt
  import Images

  const UntitledTitle: string := "Untitled"
  const MissingLink: string := "#"

  /**
   * The host facilities the mapping calls and the model does not define:
   * `new Date().toISOString()` (also standing for `Date.now()`),
   * `new Date(text).toISOString()` (`None` when the date is invalid and the
   * call throws), `new URL(url).origin` (`None` when the constructor throws)
   * and `new Date(text).getTime()`.
   */
  datatype Host = Host(
    nowIso: string,
    isoOf: string -> Option<string>,
    originOf: string -> Option<string>,
    timeOf: string -> int)

  /** How fetching and parsing one feed ended; a network error, timeout, bad status or unparsable document is `Unreachable`. */
  datatype FetchOutcome = Unreachable | Parsed(items: seq<RawItem>)

  /** `item.title?.trim() || 'Untitled'`. */
  function Title(item: RawItem): (t: string)
    ensures |t| > 0
    ensures item.title.None? || AllWhitespace(item.title.value) ==> t == UntitledTitle
    ensures item.title.Some? && !AllWhitespace(item.title.value) ==> t == Trim(item.title.value)
  {
    var trimmed := if item.title.Some? then Trim(item.title.value) else "";
    if |trimmed| > 0 then trimmed else UntitledTitle
  }

  /** A title never starts or ends with whitespace, whatever the feed sent. */
  lemma TitleIsTrimmed(item: RawItem)
    ensures var t := Title(item); !IsWhitespace(t[0]) && !IsWhitespace(t[|t| - 1])
  {
    if item.title.None? || AllWhitespace(item.title.value) {
      assert Title(item) == UntitledTitle;
      assert !IsWhitespace('U') && !IsWhitespace('d');
    }
  }

  /** `item.link || '#'`. */
  function Link(item: RawItem): (l: string)
    ensures |l| > 0
    ensures Present(item.link) ==> l == item.link.value
    ensures !Present(item.link) ==> l == MissingLink
  {
    Or(item.link, MissingLink)
  }

  /** `item.pubDate || item.isoDate || new Date().toISOString()`. */
  function PubDate(item: RawItem, host: Host): (d: string)
    ensures Present(item.pubDate) ==> d == item.pubDate.value
    ensures !Present(item.pubDate) && Present(item.isoDate) ==> d == item.isoDate.value
    ensures !Present(item.pubDate) && !Present(item.isoDate) ==> d == host.nowIso
  {
    Or(item.pubDate, Or(item.isoDate, host.nowIso))
  }

  /**
   * `item.isoDate || new Date(item.pubDate || Date.now()).toISOString()` as
   * written: `None` stands for the `RangeError` thrown for an invalid date.
   */
  function IsoDateAsWritten(item: RawItem, host: Host): (d: Option<string>)
    ensures Present(item.isoDate) ==> d == item.isoDate
    ensures !Present(item.isoDate) && !Present(item.pubDate) ==> d == Some(host.nowIso)
    ensures d.None? <==> !Present(item.isoDate) && Present(item.pubDate) && host.isoOf(item.pubDate.value).None?
  {
    if Present(item.isoDate) then item.isoDate
    else if Present(item.pubDate) then host.isoOf(item.pubDate.value)
    else Some(host.nowIso)
  }

  /** The normalised date when an invalid date falls back to now instead of throwing the whole feed away. */
  function IsoDate(item: RawItem, host: Host): (d: string)
    ensures IsoDateAsWritten(item, host).Some? ==> d == IsoDateAsWritten(item, host).value
    ensures IsoDateAsWritten(item, host).None? ==> d == host.nowIso
  {
    if Present(item.isoDate) then item.isoDate.value
    else if Present(item.pubDate) && host.isoOf(item.pubDate.value).Some? then host.isoOf(item.pubDate.value).value
    else host.nowIso
  }

  /** What each field rule guarantees on its own. */
  lemma FieldFacts(item: RawItem, host: Host)
    ensures var t := Title(item); |t| > 0 && !IsWhitespace(t[0]) && !IsWhitespace(t[|t| - 1])
    ensures |Link(item)| > 0
    ensures |Excerpt.CreateExcerpt(item)| <= Excerpt.MaxLength
    ensures Images.ExtractImage(item).Some? ==> |Images.ExtractImage(item).value| > 0
    ensures IsoDateAsWritten(item, host).Some? ==> IsoDate(item, host) == IsoDateAsWritten(item, host).value
  {
    TitleIsTrimmed(item);
  }

  /** The mapping of one item once the feed's origin is known, with the corrected date fallback. */
  function MapItem(item: RawItem, feed: FeedConfig, origin: string, host: Host): (r: FeedItem)
    ensures |r.title| > 0 && !IsWhitespace(r.title[0]) && !IsWhitespace(r.title[|r.title| - 1])
    ensures |r.link| > 0
    ensures |r.excerpt| <= Excerpt.MaxLength
    ensures r.image.Some? ==> |r.image.value| > 0
    ensures IsoDateAsWritten(item, host).Some? ==> r.isoDate == IsoDateAsWritten(item, host).value
    ensures r.source == feed.sourceLabel && r.sourceUrl == origin
    ensures r.title == Title(item) && r.link == Link(item) && r.pubDate == PubDate(item, host)
    ensures r.excerpt == Excerpt.CreateExcerpt(item) && r.image == Images.ExtractImage(item)
  {
    FieldFacts(item, host);
    FeedItem(
      title := Title(item),
      link := Link(item),
      pubDate := PubDate(item, host),
      isoDate := IsoDate(item, host),
      excerpt := Excerpt.CreateExcerpt(item),
      image := Images.ExtractImage(item),
      source := feed.sourceLabel,
      sourceUrl := origin)
  }

  /** The values of the mapped record, case by case, in terms of the item's own fields. */
  lemma MapItemValues(item: RawItem, feed: FeedConfig, origin: string, host: Host)
    ensures var r := MapItem(item, feed, origin, host);
            && (item.title.None? || AllWhitespace(item.title.value) ==> r.title == UntitledTitle)
            && (item.title.Some? && !AllWhitespace(item.title.value) ==> r.title == Trim(item.title.value))
            && (Present(item.link) ==> r.link == item.link.value)
            && (!Present(item.link) ==> r.link == MissingLink)
            && (Present(item.pubDate) ==> r.pubDate == item.pubDate.value)
            && (!Present(item.pubDate) && Present(item.isoDate) ==> r.pubDate == item.isoDate.value)
            && (!Present(item.pubDate) && !Present(item.isoDate) ==> r.pubDate == host.nowIso)
            && r.image == Images.FirstAvailable(Images.Candidates(item))
  {
    Images.ExtractImageIsFirstCandidate(item);
  }

  /** The mapping as written: `None` when the date conversion or the origin lookup throws. */
  function MapItemAsWritten(item: RawItem, feed: FeedConfig, host: Host): (r: Option<FeedItem>)
    ensures r.Some? <==> host.originOf(feed.url).Some? && IsoDateAsWritten(item, host).Some?
    ensures r.Some? ==> r.value == MapItem(item, feed, host.originOf(feed.url).value, host)
  {
    var origin := host.originOf(feed.url);
    var iso := IsoDateAsWritten(item, host);
    if origin.None? || iso.None? then None
    else Some(MapItem(item, feed, origin.value, host))
  }

  /** `fetchFeed` as written: a single throwing item empties the whole feed. */
  function FetchFeedAsWritten(feed: FeedConfig, outcome: FetchOutcome, host: Host): (r: seq<FeedItem>)
    ensures outcome.Unreachable? ==> r == []
    ensures outcome.Parsed? && (exists i :: 0 <= i < |outcome.items| && MapItemAsWritten(outcome.items[i], feed, host).None?)
            ==> r == []
    ensures outcome.Parsed? && (forall i :: 0 <= i < |outcome.items| ==> MapItemAsWritten(outcome.items[i], feed, host).Some?)
            ==> |r| == |outcome.items|
                && forall i :: 0 <= i < |r| ==> Some(r[i]) == MapItemAsWritten(outcome.items[i], feed, host)
  {
    match outcome
    case Unreachable => []
    case Parsed(items) => MapAllOrNothing(items, Mapper(feed, host))
  }

  /** The written mapping of the items of one feed. */
  function Mapper(feed: FeedConfig, host: Host): RawItem -> Option<FeedItem> {
    (item: RawItem) => MapItemAsWritten(item, feed, host)
  }

  /**
   * `fetchFeed` with the corrected date fallback: a reachable feed with a
   * valid URL yields one item per parsed item, in order; otherwise nothing.
   */
  function FetchFeed(feed: FeedConfig, outcome: FetchOutcome, host: Host): (r: seq<FeedItem>)
    ensures outcome.Unreachable? || host.originOf(feed.url).None? ==> r == []
    ensures outcome.Parsed? && host.originOf(feed.url).Some? ==>
              |r| == |outcome.items|
              && forall i :: 0 <= i < |r| ==>
                   r[i] == MapItem(outcome.items[i], feed, host.originOf(feed.url).value, host)
  {
    match outcome
    case Unreachable => []
    case Parsed(items) =>
      match host.originOf(feed.url)
      case None => []
      case Some(origin) => seq(|items|, i requires 0 <= i < |items| => MapItem(items[i], feed, origin, host))
  }

  /** One item without `isoDate` whose `pubDate` does not parse makes the written `fetchFeed` drop every item of its feed. */
  lemma {:induction false} InvalidDateDropsFeed(feed: FeedConfig, items: seq<RawItem>, host: Host, i: nat)
    requires i < |items|
    requires !Present(items[i].isoDate) && Present(items[i].pubDate) && host.isoOf(items[i].pubDate.value).None?
    ensures FetchFeedAsWritten(feed, Parsed(items), host) == []
  {
    assert MapItemAsWritten(items[i], feed, host).None?;
  }

  /** Where the written `fetchFeed` succeeds, the corrected one gives the same items. */
  lemma {:induction false} FetchFeedAgreesWhenNoDateFails(feed: FeedConfig, outcome: FetchOutcome, host: Host)
    requires FetchFeedAsWritten(feed, outcome, host) != []
    ensures FetchFeed(feed, outcome, host) == FetchFeedAsWritten(feed, outcome, host)
  {
    var written := FetchFeedAsWritten(feed, outcome, host);
    assert outcome.Parsed?;
    var items := outcome.items;
    var f := Mapper(feed, host);
    assert written == MapAllOrNothing(items, f);
    assert f(items[0]).Some?;
    var fixed := FetchFeed(feed, outcome, host);
    forall i | 0 <= i < |written|
      ensures fixed[i] == written[i]
    {
      assert Some(written[i]) == f(items[i]);
    }
  }

  /** Where no item's date conversion throws, the written `fetchFeed` and the corrected one give the same items. */
  lemma FetchFeedAgreesWhenDatesParse(feed: FeedConfig, outcome: FetchOutcome, host: Host)
    requires outcome.Parsed? ==> forall j :: 0 <= j < |outcome.items| ==> IsoDateAsWritten(outcome.items[j], host).Some?
    ensures FetchFeedAsWritten(feed, outcome, host) == FetchFeed(feed, outcome, host)
  {
    if outcome.Parsed? && |outcome.items| > 0 {
      if host.originOf(feed.url).Some? {
        assert forall i :: 0 <= i < |outcome.items| ==> MapItemAsWritten(outcome.items[i], feed, host).Some?;
        FetchFeedAgreesWhenNoDateFails(feed, outcome, host);
      } else {
        assert MapItemAsWritten(outcome.items[0], feed, host).None?;
      }
    }
  }

  /** A concrete feed: a valid item and an item with the date `"yesterday"`, on a host where no date parses. */
  lemma InvalidDateExample()
    ensures var host := Host("2026-01-01T00:00:00.000Z", (t: string) => None, (u: string) => Some("https://news.example"), (t: string) => 0);
            var good := RawItem(Some("A"), Some("https://news.example/a"), None, Some("2025-12-31T10:00:00.000Z"),
                                None, None, None, None, None, None, None, None, None, None);
            var bad := good.(isoDate := None, pubDate := Some("yesterday"));
            var feed := FeedConfig("news", "https://news.example/rss", "News");
            && FetchFeedAsWritten(feed, Parsed([good, bad]), host) == []
            && |FetchFeed(feed, Parsed([good, bad]), host)| == 2
            && FetchFeed(feed, Parsed([good, bad]), host)[1].isoDate == host.nowIso
  {
    var host := Host("2026-01-01T00:00:00.000Z", (t: string) => None, (u: string) => Some("https://news.example"), (t: string) => 0);
    var good := RawItem(Some("A"), Some("https://news.example/a"), None, Some("2025-12-31T10:00:00.000Z"),
                        None, None, None, None, None, None, None, None, None, None);
    var bad := good.(isoDate := None, pubDate := Some("yesterday"));
    var feed := FeedConfig("news", "https://news.example/rss", "News");
    InvalidDateDropsFeed(feed, [good, bad], host, 1);
  }
}

=== FILE: sorting.dfy ===
/**
 * The final sort of `getAllFeedItems` in src/lib/rss.ts: newest first, with
 * the comparator `time(b) - time(a)`. `Array.prototype.sort` is stable, so
 * elements with equal times keep their relative order. Modelled as an
 * insertion sort, largest key first.
 */
module Sorting {
  import opened Collections

  /** Non-increasing by `key`. */
  predicate SortedDesc<T>(s: seq<T>, key: T -> int) {
    forall i, j :: 0 <= i < j < |s| ==> key(s[i]) >= key(s[j])
  }

  /** Places `x` before the first element whose key is at most its own. */
  function Insert<T>(x: T, s: seq<T>, key: T -> int): (r: seq<T>)
    requires SortedDesc(s, key)
    ensures SortedDesc(r, key)
    ensures |r| == |s| + 1
    ensures r[0] == x || (|s| > 0 && r[0] == s[0])
    ensures multiset(r) == multiset(s) + multiset{x}
    decreases |s|
  {
    if |s| == 0 || key(s[0]) <= key(x) then [x] + s
    else
      var rest := Insert(x, s[1..], key);
      assert s == [s[0]] + s[1..];
      ConsSorted(s[0], rest, key);
      [s[0]] + rest
  }

  lemma ConsSorted<T>(y: T, r: seq<T>, key: T -> int)
    requires SortedDesc(r, key) && (|r| == 0 || key(r[0]) <= key(y))
    ensures SortedDesc([y] + r, key)
  {
    var t := [y] + r;
    forall i, j | 0 <= i < j < |t|
      ensures key(t[i]) >= key(t[j])
    {
      assert t[j] == r[j - 1];
      if i > 0 {
        assert t[i] == r[i - 1];
      } else {
        assert key(r[j - 1]) <= key(r[0]);
      }
    }
  }

  /** The sort: each element is inserted, from the last to the first, into the sorted rest. */
  function SortDesc<T>(s: seq<T>, key: T -> int): (r: seq<T>)
    ensures SortedDesc(r, key)
    ensures multiset(r) == multiset(s)
    ensures |r| == |s|
    decreases |s|
  {
    if |s| == 0 then []
    else
      assert s == [s[0]] + s[1..];
      Insert(s[0], SortDesc(s[1..], key), key)
  }

  /** The elements of `s` whose key is `k`, in order. */
  function WithKey<T>(s: seq<T>, key: T -> int, k: int): (r: seq<T>)
    ensures |r| <= |s|
    ensures forall i :: 0 <= i < |r| ==> key(r[i]) == k
    decreases |s|
  {
    if |s| == 0 then []
    else (if key(s[0]) == k then [s[0]] else []) + WithKey(s[1..], key, k)
  }

  lemma {:induction false} InsertStable<T>(x: T, s: seq<T>, key: T -> int, k: int)
    requires SortedDesc(s, key)
    ensures WithKey(Insert(x, s, key), key, k) == (if key(x) == k then [x] else []) + WithKey(s, key, k)
    decreases |s|
  {
    if |s| == 0 || key(s[0]) <= key(x) {
      assert ([x] + s)[1..] == s;
    } else {
      var s0 := s[0];
      var rest := Insert(x, s[1..], key);
      InsertStable(x, s[1..], key, k);
      assert ([s0] + rest)[1..] == rest;
      var hx := if key(x) == k then [x] else [];
      var h0 := if key(s0) == k then [s0] else [];
      calc {
        WithKey(Insert(x, s, key), key, k);
        h0 + WithKey(rest, key, k);
        h0 + (hx + WithKey(s[1..], key, k));
      }
      if key(x) == k {
        assert h0 == [];
        assert [] + (hx + WithKey(s[1..], key, k)) == hx + WithKey(s[1..], key, k);
        assert WithKey(s, key, k) == [] + WithKey(s[1..], key, k);
        assert [] + WithKey(s[1..], key, k) == WithKey(s[1..], key, k);
      } else {
        assert hx == [];
        assert [] + WithKey(s, key, k) == WithKey(s, key, k);
        assert [] + WithKey(s[1..], key, k) == WithKey(s[1..], key, k);
      }
    }
  }

  /**
   * Stability: for every key value, the elements carrying it come out in
   * the order they went in.
   */
  lemma {:induction false} SortStable<T>(s: seq<T>, key: T -> int, k: int)
    ensures WithKey(SortDesc(s, key), key, k) == WithKey(s, key, k)
    decreases |s|
  {
    if |s| > 0 {
      SortStable(s[1..], key, k);
      InsertStable(s[0], SortDesc(s[1..], key), key, k);
    }
  }

  /** Inserting keeps the set of another key, plus the new element's. */
  lemma {:induction false} InsertKeySet<T, K>(x: T, s: seq<T>, time: T -> int, key: T -> K)
    requires SortedDesc(s, time)
    ensures KeysOf(Insert(x, s, time), key) == KeysOf(s, key) + {key(x)}
    decreases |s|
  {
    if |s| == 0 || time(s[0]) <= time(x) {
      ConsKeySet(x, s, key);
    } else {
      var rest := Insert(x, s[1..], time);
      assert Insert(x, s, time) == [s[0]] + rest;
      InsertKeySet(x, s[1..], time, key);
      ConsKeySet(s[0], rest, key);
      assert s == [s[0]] + s[1..];
      ConsKeySet(s[0], s[1..], key);
    }
  }

  /** Inserting an element with a new key keeps another key distinct. */
  lemma {:induction false} InsertDistinct<T, K>(x: T, s: seq<T>, time: T -> int, key: T -> K)
    requires SortedDesc(s, time)
    requires DistinctKeys(s, key) && key(x) !in KeysOf(s, key)
    ensures DistinctKeys(Insert(x, s, time), key)
    decreases |s|
  {
    if |s| == 0 || time(s[0]) <= time(x) {
      ConsDistinct(x, s, key);
    } else {
      var rest := Insert(x, s[1..], time);
      assert Insert(x, s, time) == [s[0]] + rest;
      assert s == [s[0]] + s[1..];
      ConsDistinct(s[0], s[1..], key);
      ConsKeySet(s[0], s[1..], key);
      InsertDistinct(x, s[1..], time, key);
      InsertKeySet(x, s[1..], time, key);
      ConsDistinct(s[0], rest, key);
    }
  }

  /** The keys of `[x] + s`. */
  lemma ConsKeySet<T, K>(x: T, s: seq<T>, key: T -> K)
    ensures KeysOf([x] + s, key) == {key(x)} + KeysOf(s, key)
  {
    var t := [x] + s;
    assert t[0] == x;
    assert forall i :: 0 <= i < |s| ==> t[i + 1] == s[i];
    forall k | k in KeysOf(t, key)
      ensures k in {key(x)} + KeysOf(s, key)
    {
      var i :| 0 <= i < |t| && key(t[i]) == k;
      if i > 0 {
        assert key(s[i - 1]) == k;
      }
    }
    forall k | k in KeysOf(s, key)
      ensures k in KeysOf(t, key)
    {
      var i :| 0 <= i < |s| && key(s[i]) == k;
      assert key(t[i + 1]) == k;
    }
  }

  /** The keys of `[x] + s` are distinct exactly when those of `s` are and `x` brings a new one. */
  lemma ConsDistinct<T, K>(x: T, s: seq<T>, key: T -> K)
    ensures DistinctKeys([x] + s, key) <==> DistinctKeys(s, key) && key(x) !in KeysOf(s, key)
  {
    var t := [x] + s;
    assert t[0] == x;
    assert forall i :: 0 <= i < |s| ==> t[i + 1] == s[i];
    if DistinctKeys(t, key) {
      forall i, j | 0 <= i < j < |s|
        ensures key(s[i]) != key(s[j])
      {
        assert key(t[i + 1]) != key(t[j + 1]);
      }
      forall i | 0 <= i < |s|
        ensures key(s[i]) != key(x)
      {
        assert key(t[0]) != key(t[i + 1]);
      }
    }
    if DistinctKeys(s, key) && key(x) !in KeysOf(s, key) {
      forall i, j | 0 <= i < j < |t|
        ensures key(t[i]) != key(t[j])
      {
        if i == 0 {
          assert key(t[j]) == key(s[j - 1]);
          assert key(s[j - 1]) in KeysOf(s, key);
        } else {
          assert key(t[i]) == key(s[i - 1]) && key(t[j]) == key(s[j - 1]);
        }
      }
    }
  }

  /** Sorting by one key keeps the set of another key. */
  lemma {:induction false} SortKeySet<T, K>(s: seq<T>, time: T -> int, key: T -> K)
    ensures KeysOf(SortDesc(s, time), key) == KeysOf(s, key)
    decreases |s|
  {
    if |s| > 0 {
      var t := SortDesc(s[1..], time);
      calc {
        KeysOf(SortDesc(s, time), key);
        KeysOf(Insert(s[0], t, time), key);
        { InsertKeySet(s[0], t, time, key); }
        KeysOf(t, key) + {key(s[0])};
        { SortKeySet(s[1..], time, key); }
        KeysOf(s[1..], key) + {key(s[0])};
        { assert s == [s[0]] + s[1..]; ConsKeySet(s[0], s[1..], key); }
        KeysOf(s, key);
      }
    }
  }

  /** Sorting by one key keeps another key distinct. */
  lemma {:induction false} SortDistinct<T, K>(s: seq<T>, time: T -> int, key: T -> K)
    requires DistinctKeys(s, key)
    ensures DistinctKeys(SortDesc(s, time), key)
    decreases |s|
  {
    if |s| > 0 {
      assert s == [s[0]] + s[1..];
      ConsDistinct(s[0], s[1..], key);
      SortDistinct(s[1..], time, key);
      SortKeySet(s[1..], time, key);
      InsertDistinct(s[0], SortDesc(s[1..], time), time, key);
    }
  }
}

=== FILE: text.dfy ===
/**
 * Character classes and string helpers with the meaning they have in
 * ECMAScript: the `\s` class, `String.prototype.trim`, the truthiness of an
 * optional string (`x || y`), `startsWith` and an ASCII `toLowerCase`.
 */
module Text {
  import opened Wrappers

  /**
   * The characters matched by `\s` and removed by `trim`: WhiteSpace (tab,
   * vertical tab, form feed, space, no-break space, the space separators,
   * byte order mark) and LineTerminator (line feed, carriage return, line
   * and paragraph separators). U+0009 to U+000D are tab, line feed, vertical
   * tab, form feed and carriage return; U+2000 to U+200A are the eleven
   * typographic spaces.
   */
  predicate IsWhitespace(c: char) {
    || '\t' <= c <= '\r'
    || c == ' ' || c == '\U{00A0}' || c == '\U{1680}'
    || '\U{2000}' <= c <= '\U{200A}'
    || c == '\U{2028}' || c == '\U{2029}' || c == '\U{202F}' || c == '\U{205F}'
    || c == '\U{3000}' || c == '\U{FEFF}'
  }

  predicate NoWhitespace(s: string) {
    forall i :: 0 <= i < |s| ==> !IsWhitespace(s[i])
  }

  predicate AllWhitespace(s: string) {
    forall i :: 0 <= i < |s| ==> IsWhitespace(s[i])
  }

  /** A field that is present and non-empty: what `if (x)` accepts for a string. */
  predicate Present(o: Option<string>) {
    o.Some? && |o.value| > 0
  }

  /** `o || fallback` for an optional string. */
  function Or(o: Option<string>, fallback: string): (r: string)
    ensures Present(o) ==> r == o.value
    ensures !Present(o) ==> r == fallback
  {
    if Present(o) then o.value else fallback
  }

  function StartsWith(s: string, prefix: string): bool {
    |prefix| <= |s| && s[..|prefix|] == prefix
  }

  function EndsWith(s: string, suffix: string): bool {
    |suffix| <= |s| && s[|s| - |suffix|..] == suffix
  }

  /** Drops the leading whitespace, as `trimStart` does. */
  function TrimStart(s: string): (r: string)
    ensures |r| <= |s| && r == s[|s| - |r|..]
    ensures |r| > 0 ==> !IsWhitespace(r[0])
    ensures AllWhitespace(s[..|s| - |r|])
  {
    if |s| > 0 && IsWhitespace(s[0]) then TrimStart(s[1..]) else s
  }

  /** Drops the trailing whitespace, as `trimEnd` does. */
  function TrimEnd(s: string): (r: string)
    ensures |r| <= |s| && r == s[..|r|]
    ensures |r| > 0 ==> !IsWhitespace(r[|r| - 1])
    ensures AllWhitespace(s[|r|..])
  {
    if |s| > 0 && IsWhitespace(s[|s| - 1]) then TrimEnd(s[..|s| - 1]) else s
  }

  /** `r` is `s` with a whitespace run removed from each end. */
  ghost predicate SliceBetweenWhitespace(s: string, r: string) {
    exists i :: 0 <= i <= |s| - |r| && r == s[i..i + |r|]
                && AllWhitespace(s[..i]) && AllWhitespace(s[i + |r|..])
  }

  /** `String.prototype.trim`. */
  function Trim(s: string): (r: string)
    ensures |r| > 0 ==> !IsWhitespace(r[0]) && !IsWhitespace(r[|r| - 1])
    ensures |r| == 0 <==> AllWhitespace(s)
    ensures |s| > 0 && !IsWhitespace(s[0]) && !IsWhitespace(s[|s| - 1]) ==> r == s
    ensures SliceBetweenWhitespace(s, r)
  {
    var t := TrimStart(s);
    var r := TrimEnd(t);
    assert |t| > 0 ==> !IsWhitespace(t[0]);
    assert |t| == 0 ==> s[..|s| - |t|] == s;
    TrimIsSlice(s, t, r);
    r
  }

  lemma TrimIsSlice(s: string, t: string, r: string)
    requires |t| <= |s| && t == s[|s| - |t|..] && AllWhitespace(s[..|s| - |t|])
    requires |r| <= |t| && r == t[..|r|] && AllWhitespace(t[|r|..])
    ensures SliceBetweenWhitespace(s, r)
  {
    var i := |s| - |t|;
    SliceOfSuffix(s, t, r);
    assert 0 <= i <= |s| - |r| && r == s[i..i + |r|] && AllWhitespace(s[..i]) && AllWhitespace(s[i + |r|..]);
  }

  /** A prefix `r` of a suffix `t` of `s` is a slice of `s`, and what follows it in `t` is what follows it in `s`. */
  lemma SliceOfSuffix(s: string, t: string, r: string)
    requires |t| <= |s| && t == s[|s| - |t|..]
    requires |r| <= |t| && r == t[..|r|]
    ensures r == s[|s| - |t|..|s| - |t| + |r|]
    ensures s[|s| - |t| + |r|..] == t[|r|..]
  {
  }

  /** ASCII case folding; `toLowerCase` on letters outside ASCII is not modelled. */
  function ToLowerChar(c: char): (r: char)
    ensures 'A' <= c <= 'Z' ==> r as int == c as int + 32
    ensures !('A' <= c <= 'Z') ==> r == c
  {
    if 'A' <= c <= 'Z' then (c as int + 32) as char else c
  }

  function ToLower(s: string): (r: string)
    ensures |r| == |s|
    ensures forall i :: 0 <= i < |s| ==> r[i] == ToLowerChar(s[i])
  {
    seq(|s|, i requires 0 <= i < |s| => ToLowerChar(s[i]))
  }

  /** Index of the first `c` in `s` at or after `from`. */
  function FindChar(s: string, c: char, from: nat): (r: Option<nat>)
    ensures r.Some? ==> from <= r.value < |s| && s[r.value] == c
                        && forall k :: from <= k < r.value ==> s[k] != c
    ensures r.None? ==> forall k :: from <= k < |s| ==> s[k] != c
    decreases |s| - from
  {
    if from >= |s| then None
    else if s[from] == c then Some(from)
    else FindChar(s, c, from + 1)
  }
}

=== FILE: wrappers.dfy ===
/** The optional value used wherever the source has `string | null` or an absent field. */
module Wrappers {

  datatype Option<+T> = None | Some(value: T)
}
